=== FILE: README.md ===
# gimp-ktx in Dafny

A model of the format-mapping and texture-planning logic of the GIMP KTX/KTX2
file plug-in:

- **Import** (`load_ktx`, load.c). An opened texture is checked in a fixed
  order: the open status, a base depth of 1, the Basis transcode to RGBA32 for
  KTX2 data that needs it, and "not compressed". Its Vulkan format is then
  mapped to a babl pixel format, a GIMP base type and a GIMP layer type. One
  layer is planned per face, from mip level 0 and array layer 0. A cube map's
  six faces are named after the KTX face order. Any other texture has one
  face, so it loads as the single layer "Layer 0", even when it is an array.
- **Export** (`save_ktx`, save.c). A drawable type and image precision select
  a Vulkan format. The run mode decides where the supercompression option
  comes from and whether it is valid. A full mip chain of
  `floor(log2(max(w, h))) + 1` levels is created. libktx is then called in a
  fixed order: create, fill the levels, supercompress when the option is
  non-zero, write.
- **The older single-file build** (plugin.c). It has the same import gating
  and table, but loads a single layer "Image". Its export table accepts only
  linear precisions. Its export writes one level from one memory buffer. Its
  `run` dispatches on the procedure name.

Everything the plug-in asks of GIMP, GEGL, babl or libktx is an input of the
model: the opened texture's fields, the library statuses, the dialogs' answers
and the stored options. The outcome is a value: either an error, or a plan
saying which layers would be made, which libktx calls would be issued, and
what would be returned. Vulkan format codes follow the `VkFormat` enumeration
of the Vulkan specification. Cube faces follow the face order of section 3
of the KTX File Format Specification 2.0 (+X, −X, +Y, −Y, +Z, −Z).

Modules, one per component:

| module | file | what it holds |
|---|---|---|
| `VkFormats` | vk_format.dfy | each listed format as a (layout, suffix) pair, plus `Other(code)`; the code round trip |
| `Gimp`, `Babl`, `Ktx` | gimp.dfy, babl.dfy, ktx.dfy | the enumerations and records of the three libraries, as values |
| `ImportTable` | import_table.dfy | the import table, and an independent rule it is compared with |
| `Decimal` | decimal.dfy | `%llu` printing and its inverse |
| `Load` | load.dfy | the import pipeline of load.c |
| `ExportTable` | export_table.dfy | the export table of save.c, and the rule behind it |
| `Mip` | mip.dfy | the level count and the mip chain |
| `Save` | save.dfy | the export procedure of save.c |
| `Plugin` | plugin.dfy | the older build's variants, compared with load.c and save.c |

Four behaviours of the code are easy to miss:

- A failed image-offset lookup is never reported. After each lookup the
  loader tests the status left by the open or the transcode, not the
  lookup's own, and that status is always success there.
- plugin.c exports an RGBA float drawable as the one-channel `R32_SFLOAT`,
  not as an RGBA format.
- save.c's level callback is called for level 0 too, so level 0 is also
  produced by rescaling, at its own size.
- plugin.c computes its buffer size from the 32-bit unsigned width and
  height, so the size wraps modulo 2^32. A 16384×16384 RGBA float drawable
  gets an empty buffer, into which the whole 4 GiB drawable is then copied.

plugin.c's import table (plugin.c:61-233) is textually identical to load.c's
(load.c:58-230). `ImportTable.Lookup` therefore models both.

## Model

| member | source | states |
|---|---|---|
| VkFormats.FromCode | load.c:58-230 | a raw format code decodes to a listed format exactly when it is one of the codes the import table compares against; every other code is kept as `Other`; encoding the result gives the code back, so the number printed in "Unknown format N" is the texture's own |
| VkFormats.FromCodeOfCode | load.c:58-223 | every listed format is recovered from its Vulkan code |
| VkFormats.CodeInjective | load.c:58-223 | no two listed formats share a code, so each comparison in the table picks one format |
| Gimp.DecodePrecision | save.c:124-151 | a precision value splits into component type and curve only when it is the value of that pair (hundreds give the type, the offset 0/50/75 the curve) |
| Gimp.DecodePrecisionCode | save.c:124-151 | every (component type, curve) pair is recovered from its precision value |
| ImportTable.Lookup | load.c:58-230 | the branch chain itself: exactly the listed formats have a row, and each row's layer type belongs to its base type |
| ImportTable.Resolve | load.c:58-230 | a raw code resolves exactly when it is a listed code, to the row of the format it denotes; otherwise the unknown code itself is the error |
| ImportTable.LookupRegular | load.c:58-223 | every row equals the independent channels/sample/curve/type rule, except exactly the three irregular rows |
| ImportTable.IrregularRowsDepart | load.c:96-187 | R8G8B8_SRGB reads as primed RGBA u8 into an RGBA layer; unsigned R16G16B16A16 goes to an RGB layer; R32_SFLOAT reads as primed Y half; nothing else in those rows departs from the rule |
| ImportTable.IrregularRowNames | load.c:96-187 | the babl names of the irregular rows are "R'G'B'A u8", "RGBA u16" and "Y' half" |
| ImportTable.VariantsShareRow | load.c:58-175 | for one layout, UNORM/USCALED/UINT share a row and SNORM/SSCALED/SINT share a row |
| ImportTable.LookupSample | load.c:58-223 | unsigned suffixes read as unsigned samples of the layout's width and signed suffixes as signed ones |
| ImportTable.LookupCurve | load.c:58-223 | SRGB reads as u8; SFLOAT reads as half (16 bits) or float (32 bits) except single-channel 32-bit, which reads as half; primed exactly for SRGB and SFLOAT |
| ImportTable.LookupBaseType | load.c:58-223 | the base type is grey exactly for one-component formats and RGB for 2, 3 and 4 components |
| ImportTable.LookupChannels | load.c:86-99 | the babl format has one channel per component except R8G8B8_SRGB, which is read as four |
| Decimal.Show | load.c:240 | the printed number is a non-empty string of digits with no leading zero, one digit exactly below ten |
| Decimal.ParseShow | load.c:226 | reading the printed digits back gives the number |
| Decimal.ShowInjective | load.c:240 | different numbers print differently |
| Load.TranscodeRequest | load.c:40-41 | a transcode is requested only for a KTX2 texture that needs it, after the open and the depth check passed, and always to RGBA32 |
| Load.Gate | load.c:29-53 | the load passes exactly when the texture opens, has depth 1, transcodes if it must, is not compressed and has a listed format. Each error arises exactly when every earlier check passed and its own failed: open, then depth, then transcode, then compression, then the table. A failed open or transcode carries libktx's status, an unknown format its own code; on success the row is the table's row for the format |
| Load.TranscodeFailureFollowsRequest | load.c:40-47 | a load fails on the transcode exactly when the RGBA32 transcode was requested and libktx refused it |
| Load.ErrorMessage | load.c:29-53 | open, transcode and offset failures report libktx's text for the status; a bad depth reports the build's depth text; a compressed texture reports "Cannot handle compressed texture"; an unknown format reports "Unknown format " followed by the code in decimal, digits that read back as the code |
| Load.FaceName | load.c:237-241 | a cube face is named "Face (", then "positive" or "negative" by i mod 2, a space, the axis letter x, y or z by i / 2, and ")"; any other face is named "Layer " followed by its number in decimal without leading zeros, digits that read back as the number |
| Load.StatusAtOffsetCheck | load.c:246-253 | the status re-tested after each offset lookup is the one left by the transcode, or by the open when no transcode ran, and it is success whenever the loader gets that far |
| Load.CubeFaceNamesFollowKtxOrder | load.c:237-238 | the i-th cube layer is named after the i-th face of the KTX order: sign from i mod 2, axis from i / 2 |
| Load.FaceNamesDistinct | load.c:237-241 | no two layers of one load share a name |
| Load.FaceLayers | load.c:235-261 | one layer per face; face i is read from level 0, layer 0, face i, inserted at position i, at the base size, with the row's layer type and pixel format |
| Load.LoadKtx | load.c:15-270 | the load fails exactly as the checks do, the offset re-test never adding a failure; a message is returned exactly on failure, the error's text with "Unsupported base level depth" for a bad depth; on success the image has the base size, the row's base type and float-linear precision, and exactly numFaces layers, face i giving layer i its name, position, image (level 0, layer 0, face i), the base size, the row's layer type and the row's babl format |
| Load.CompressedNeverLoads | load.c:49-53 | a texture still compressed after the transcode step never reaches the table |
| Load.OffsetFailuresIgnored | load.c:246-253 | failures of the image-offset lookup change nothing in the outcome |
| Load.CubemapLayers | load.c:235-242 | a six-face cube map that passes the checks loads, as layers named +X, −X, +Y, −Y, +Z, −Z in that order |
| ExportTable.SaveFormat | save.c:122-262 | only the indexed types give "Unhandled image format"; every chosen format is listed and has one component per channel of the drawable |
| ExportTable.SwitchLabels | save.c:124-151 | the precision values the switch has labels for are exactly the values of a non-double component type with one of the three curves |
| ExportTable.SaveFormatFollowsRule | save.c:122-262 | for every drawable type and every precision value, the switch equals the rule: width from the component type, UNORM/UINT/SFLOAT by kind, SRGB only for 8-bit non-linear or perceptual; Double and unknown values are refused |
| ExportTable.ExportThenImport | save.c:122-262 | every format save.c writes has a row in load.c's table. The channel count comes back except for non-linear 8-bit RGB (four channels); the sample type except for grey float (half). The row is perceptual exactly for non-linear or perceptual 8-bit data and for all half and float data, so linear half and float come back perceptual and non-linear 16- and 32-bit integers come back linear. The layer type comes back except for GRAYA, non-linear 8-bit RGB and 16-bit RGBA |
| Mip.FloorLog2 | save.c:300 | the integer logarithm k of n satisfies 2^k ≤ n < 2^(k+1) |
| Mip.LevelCount | save.c:299-300 | the level count n satisfies 2^(n−1) ≤ max(w, h) < 2^n, and at least one level is requested |
| Mip.LevelCountIs | save.c:299-300 | the bound in the level count's contract determines the count |
| Mip.LevelCountExamples | save.c:299-300 | a 1×1 image gets one level, 64×64 seven and 300×200 nine |
| Mip.LevelSizesAreHalvingChain | save.c:299-300 | the levels of the computed count, at libktx's sizes, are exactly the chain that halves each side until one pixel is left |
| Mip.ChainEndsAtOnePixel | save.c:299-300 | the chain's last level is 1×1 and no earlier level is |
| Save.ReadOptions | save.c:263-292 | interactive runs stop with CANCEL when the dialog is cancelled and otherwise use and remember the dialog's value; non-interactive runs need exactly 6 parameters and a value in 0..255, else CALLING_ERROR; last-values runs use the stored value or the default 0; other modes keep the default |
| Save.CreateInfoFor | save.c:295-305 | the created texture has the chosen format, the drawable's size and the given level count, and is always 2D, depth 1, one layer, one face, not an array, with no generated mipmaps |
| Save.RunLibrary | save.c:306-337 | create comes first; a failing create, fill or compress ends the export with that call's libktx text, and the calls made are exactly those up to the failing one; supercompression is called exactly when the option is non-zero and the fill passed; on success the calls are create, fill, the optional compression and the write |
| Save.SaveKtx | save.c:95-338 | a cancelled export returns CANCEL with nothing created; a refused format returns its own text with nothing created; an option failure returns its status with the default text and nothing created; otherwise the library steps run with the option read, on a texture of the chosen format, the base size and the full mip count, filled along the halving chain with one image per created level; a message is returned exactly on failure; the dialog's value is remembered exactly for an interactive run |
| Save.LastValuesRecallDialog | save.c:263-292 | the value an interactive export remembers is read back unchanged by a later last-values export |
| Save.WriteStatusIgnored | save.c:334-337 | the write's status never changes the result |
| Save.FormatCheckedFirst | save.c:122-292 | a refused type or precision gives the same result whatever the run mode, parameters, stored options or dialog |
| Save.CompressionOnlyWhenAsked | save.c:326-333 | supercompression is requested only with a non-zero level and only after create and fill succeeded |
| Plugin.LegacyLoad | plugin.c:18-264 | the same gating as load.c, the stale re-test after the offset lookup never adding a failure; a message is returned exactly on failure, the error's text with "Invalid base level depth" for a bad depth; on success an image of the base size, the row's base type and float-linear precision, holding a single layer "Image" at position 0 of the base size, the row's layer type and babl format, read from level 0, layer 0, face 0 |
| Plugin.LoadersAgree | plugin.c:235-256 | both loaders request the same transcode and fail exactly alike, and return the same message unless the depth check failed. plugin.c's one layer is load.c's first layer, renamed "Image", even for cube maps |
| Plugin.DepthMessagesDiffer | plugin.c:37-41 | the two loaders' messages differ only for a bad depth ("Invalid base level depth" against "Unsupported base level depth") |
| Plugin.LegacySaveFormat | plugin.c:346-438 | only the indexed types give "Unhandled image format"; no SRGB format is ever chosen |
| Plugin.ExportTablesCompared | plugin.c:346-438 | both tables refuse indexed types. On the linear precisions they agree, except RGBA float: R32_SFLOAT here, R32G32B32A32_SFLOAT in save.c. Every non-linear precision is refused here |
| Plugin.LegacySave | plugin.c:319-512 | like save.c's export (same early exits, options and library steps), but the texture has a single level and is filled from one buffer whose size is width × height × the drawable's bytes per pixel, wrapped to 32 bits |
| Plugin.DrawableBytes | plugin.c:487-491 | the buffer size is below 2^32 and congruent to the drawable's size modulo 2^32; it equals that size exactly when the size is below 2^32 |
| Plugin.BufferSizeWraps | plugin.c:487-491 | a 16384×16384 RGBA float drawable is exactly 2^32 bytes and gets a buffer of size 0 |
| Plugin.SavesEndAlike | plugin.c:439-511 | once both tables accept the drawable, the two exporters return the same status and message, remember the same option and make as many libktx calls |
| Plugin.BufferMatchesTexel | plugin.c:487-491 | the drawable copied into the buffer is exactly one level-0 image of the chosen format, except for RGBA float, where it is four times larger than the one-channel texture's image |
| Plugin.Dispatch | plugin.c:577-583 | "file-ktx2-load" selects the loader, "file-ktx2-save" the exporter, and any other name does nothing |

## Left out

- Calls into GIMP, GEGL and babl are not modelled; their results are inputs
  or plan entries. This covers image and layer creation, buffer reads and
  writes, `babl_format` lookups, `gimp_export_image`'s conversion of the
  drawable, and `gimp_get_data`/`gimp_set_data` storage.
- libktx is not modelled: file parsing, the texture object, row pitch,
  image offsets, Basis transcoding and supercompression. Each call is an
  input status, and the error texts of `ktxErrorString` are referred to by
  status code.
- The cubic rescaling in `mipmap_export` (save.c:75-93) is floating-point.
  The model keeps only the size of each level.
- Mip.LevelCount uses the integer floor of the logarithm, where save.c uses
  floating-point `log2`. The two agree for every size a 32-bit `GLuint`
  holds. The function requires a non-empty image; an empty one is undefined
  in the C.
- Save.SaveKtx requires a drawable of at least 1×1 because its level count
  does. `LegacySave` has no such requirement.
- The GTK options dialog (save.c:20-66) and `query()` registration with the
  magic-byte handler (plugin.c:525-575) are user interface and registration.
  The dialog is an input: OK with a slider value, or cancel.
- Memory handling (the leaked message buffer, `free`, `g_object_unref`) has
  no effect on results.
- `snprintf`'s 128-byte truncation of layer names and "Unknown format N"
  never applies. The longest such text is well under 128 bytes.
- Load.Texture has no array-layer count: the loader never reads it and always
  takes array layer 0 (load.c:247), so the other layers of an array texture
  are never loaded. `numFaces` is an input; libktx sets it to 6 for a cube
  map and to 1 otherwise.
- The Vulkan formats are only those the tables name. Every other code is
  `Other(code)`.

=== FILE: babl.dfy ===
/** babl pixel formats, as values rather than the library's interned handles. */
module Babl {

  /** Channel model of a babl format. */
  datatype Channels = Y | YA | RGB | RGBA

  /** Sample type of a babl format. */
  datatype Sample = U8 | S8 | U16 | S16 | U32 | S32 | Half | Float

  /**
   * A babl pixel format: the channel model, the sample type, and whether the
   * channels are perceptual (written primed in babl's names: `Y'`, `R'G'B'A`).
   */
  datatype Descriptor = Descriptor(channels: Channels, sample: Sample, primed: bool)

  function ChannelCount(c: Channels): nat {
    match c
    case Y => 1
    case YA => 2
    case RGB => 3
    case RGBA => 4
  }

  function SampleBits(s: Sample): nat {
    match s
    case U8 => 8
    case S8 => 8
    case U16 => 16
    case S16 => 16
    case U32 => 32
    case S32 => 32
    case Half => 16
    case Float => 32
  }

  predicate Signed(s: Sample) {
    s in {S8, S16, S32}
  }

  function ChannelsName(c: Channels, primed: bool): string {
    match c
    case Y => if primed then "Y'" else "Y"
    case YA => if primed then "Y'A" else "YA"
    case RGB => if primed then "R'G'B'" else "RGB"
    case RGBA => if primed then "R'G'B'A" else "RGBA"
  }

  function SampleName(s: Sample): string {
    match s
    case U8 => "u8"
    case S8 => "s8"
    case U16 => "u16"
    case S16 => "s16"
    case U32 => "u32"
    case S32 => "s32"
    case Half => "half"
    case Float => "float"
  }

  /** The name babl registers the format under, such as `"R'G'B'A u8"`. */
  function Name(d: Descriptor): string {
    ChannelsName(d.channels, d.primed) + " " + SampleName(d.sample)
  }
}

=== FILE: decimal.dfy ===
/** Decimal rendering of unsigned integers, as `%llu` prints them. */
module Decimal {

  predicate IsDigit(c: char) {
    '0' <= c <= '9'
  }

  predicate IsDigits(s: string) {
    forall i :: 0 <= i < |s| ==> IsDigit(s[i])
  }

  function DigitChar(d: nat): (c: char)
    requires d < 10
    ensures IsDigit(c)
  {
    ('0' as int + d) as char
  }

  function DigitValue(c: char): nat
    requires IsDigit(c)
  {
    c as int - '0' as int
  }

  /** The decimal digits of `n`, most significant first, without leading zeros. */
  function Show(n: nat): (s: string)
    ensures |s| >= 1 && IsDigits(s)
    ensures |s| > 1 ==> s[0] != '0'
    ensures n < 10 <==> |s| == 1
  {
    if n < 10 then [DigitChar(n)] else Show(n / 10) + [DigitChar(n % 10)]
  }

  /** The number a string of digits denotes. */
  function Parse(s: string): nat
    requires IsDigits(s)
  {
    if |s| == 0 then 0 else Parse(s[..|s| - 1]) * 10 + DigitValue(s[|s| - 1])
  }

  /** Reading back what `Show` prints gives the number. */
  lemma {:induction false} ParseShow(n: nat)
    ensures Parse(Show(n)) == n
  {
    if n >= 10 {
      var s := Show(n);
      assert s[..|s| - 1] == Show(n / 10);
      ParseShow(n / 10);
    }
  }

  /** Distinct numbers print differently. */
  lemma ShowInjective(a: nat, b: nat)
    requires Show(a) == Show(b)
    ensures a == b
  {
    ParseShow(a);
    ParseShow(b);
  }
}

=== FILE: export_table.dfy ===
/**
 * The format the exporter writes for a drawable (the switch in `save_ktx`,
 * save.c): a texture format chosen from the drawable type and the image
 * precision, or the reason the pair is refused.
 */
module ExportTable {
  import opened Wrappers
  import opened VkFormats
  import opened Gimp
  import Babl
  import ImportTable

  datatype SaveError = UnhandledPrecision | UnhandledFormat

  function SaveErrorText(e: SaveError): string {
    match e
    case UnhandledPrecision => "Unhandled image precision"
    case UnhandledFormat => "Unhandled image format"
  }

  /**
   * The switch of save.c, one case per label. The precision is compared as
   * an unsigned value, so no negative precision matches a label.
   */
  function SaveFormat(t: ImageType, p: int): (r: Result<VkFormat, SaveError>)
    ensures r == Failure(UnhandledFormat) <==> t in {IndexedImage, IndexedaImage}
    ensures r.Success? ==> Listed(r.value) && Components(r.value.layout) == ChannelCount(t)
  {
    match t
    case GrayImage => (
      match p
      case 100 => Success(Vk(R8, UNORM))
      case 150 | 175 => Success(Vk(R8, SRGB))
      case 200 | 250 | 275 => Success(Vk(R16, UNORM))
      case 300 | 350 | 375 => Success(Vk(R32, UINT))
      case 500 | 550 | 575 => Success(Vk(R16, SFLOAT))
      case 600 | 650 | 675 => Success(Vk(R32, SFLOAT))
      case _ => Failure(UnhandledPrecision))
    case GrayaImage => (
      match p
      case 100 => Success(Vk(R8G8, UNORM))
      case 150 | 175 => Success(Vk(R8G8, SRGB))
      case 200 | 250 | 275 => Success(Vk(R16G16, UNORM))
      case 300 | 350 | 375 => Success(Vk(R32G32, UINT))
      case 500 | 550 | 575 => Success(Vk(R16G16, SFLOAT))
      case 600 | 650 | 675 => Success(Vk(R32G32, SFLOAT))
      case _ => Failure(UnhandledPrecision))
    case RgbImage => (
      match p
      case 100 => Success(Vk(R8G8B8, UNORM))
      case 150 | 175 => Success(Vk(R8G8B8, SRGB))
      case 200 | 250 | 275 => Success(Vk(R16G16B16, UNORM))
      case 300 | 350 | 375 => Success(Vk(R32G32B32, UINT))
      case 500 | 550 | 575 => Success(Vk(R16G16B16, SFLOAT))
      case 600 | 650 | 675 => Success(Vk(R32G32B32, SFLOAT))
      case _ => Failure(UnhandledPrecision))
    case RgbaImage => (
      match p
      case 100 => Success(Vk(R8G8B8A8, UNORM))
      case 150 | 175 => Success(Vk(R8G8B8A8, SRGB))
      case 200 | 250 | 275 => Success(Vk(R16G16B16A16, UNORM))
      case 300 | 350 | 375 => Success(Vk(R32G32B32A32, UINT))
      case 500 | 550 | 575 => Success(Vk(R16G16B16A16, SFLOAT))
      case 600 | 650 | 675 => Success(Vk(R32G32B32A32, SFLOAT))
      case _ => Failure(UnhandledPrecision))
    case _ => Failure(UnhandledFormat)
  }

  // ---------------------------------------------------------------------
  // The rule behind the switch, stated from the precision's two halves.

  /** The layout with `n` components of `bits` bits each. */
  function LayoutWith(n: nat, bits: nat): Layout
    requires 1 <= n <= 4 && bits in {8, 16, 32}
  {
    match bits
    case 8 => [R8, R8G8, R8G8B8, R8G8B8A8][n - 1]
    case 16 => [R16, R16G16, R16G16B16, R16G16B16A16][n - 1]
    case _ => [R32, R32G32, R32G32B32, R32G32B32A32][n - 1]
  }

  function ComponentBits(c: ComponentType): nat {
    8 * ComponentBytes(c)
  }

  /**
   * Integers are written normalized (8 and 16 bits) or as plain integers
   * (32 bits), floats as floats; only 8-bit data records its curve, as sRGB.
   */
  function SuffixFor(c: ComponentType, trc: Trc): Suffix {
    match c
    case U8 => if trc == Linear then UNORM else SRGB
    case U16 => UNORM
    case U32 => UINT
    case _ => SFLOAT
  }

  /** The format the rule gives: component count from the drawable, width and kind from the precision. */
  function RuleFormat(t: ImageType, p: int): Result<VkFormat, SaveError> {
    if t in {IndexedImage, IndexedaImage} then Failure(UnhandledFormat)
    else
      match DecodePrecision(p)
      case Some((c, trc)) =>
        if c == Double then Failure(UnhandledPrecision)
        else Success(Vk(LayoutWith(ChannelCount(t), ComponentBits(c)), SuffixFor(c, trc)))
      case None => Failure(UnhandledPrecision)
  }

  /** The precision values the switch has labels for are exactly those of a type it can write. */
  lemma SwitchLabels(p: int)
    ensures DecodePrecision(p).Some? && DecodePrecision(p).value.0 != Double <==>
      p in {100, 150, 175, 200, 250, 275, 300, 350, 375, 500, 550, 575, 600, 650, 675}
  {
    if DecodePrecision(p).Some? {
      DecodePrecisionCode(DecodePrecision(p).value.0, DecodePrecision(p).value.1);
    } else {
      forall c: ComponentType, trc: Trc ensures DecodePrecision(PrecisionCode(c, trc)).Some? {
        DecodePrecisionCode(c, trc);
      }
      assert 150 == PrecisionCode(U8, NonLinear);
    }
  }

  /** The switch is exactly the rule, for every drawable type and every precision value. */
  lemma SaveFormatFollowsRule(t: ImageType, p: int)
    ensures SaveFormat(t, p) == RuleFormat(t, p)
  {
    if t !in {IndexedImage, IndexedaImage} {
      SwitchLabels(p);
      if DecodePrecision(p).Some? {
        DecodePrecisionCode(DecodePrecision(p).value.0, DecodePrecision(p).value.1);
      }
    }
  }

  // ---------------------------------------------------------------------
  // Exporting and importing again.

  /**
   * What a drawable exported by save.c opens as. Every written format has a
   * row. The channel count survives except for non-linear 8-bit RGB (read as
   * RGBA); the sample type survives except for grey float (read as half).
   * The curve does not survive as such: the row is perceptual exactly for
   * non-linear or perceptual 8-bit data and for every half or float
   * precision, so linear half and float come back perceptual and non-linear
   * 16- and 32-bit integers come back linear. The layer type survives except
   * for GRAYA, non-linear 8-bit RGB and 16-bit RGBA.
   */
  lemma ExportThenImport(t: ImageType, p: int)
    requires SaveFormat(t, p).Success?
    ensures DecodePrecision(p).Some? && DecodePrecision(p).value.0 != Double
    ensures ImportTable.Lookup(SaveFormat(t, p).value).Some?
    ensures
      var (c, trc) := DecodePrecision(p).value;
      var row := ImportTable.Lookup(SaveFormat(t, p).value).value;
      && (Babl.ChannelCount(row.format.channels) == ChannelCount(t) <==> !(t == RgbImage && c == U8 && trc != Linear))
      && (row.format.sample == (if c == Float && t == GrayImage then Babl.Half else SampleOf(c)))
      && (row.format.primed <==> (c == U8 && trc != Linear) || c in {Half, Float})
      && (row.imageType == t <==> !(t == GrayaImage || (t == RgbImage && c == U8 && trc != Linear) || (t == RgbaImage && c == U16)))
  {
    SaveFormatFollowsRule(t, p);
  }

  /** The babl sample type that stores GIMP's component type unchanged. */
  function SampleOf(c: ComponentType): Babl.Sample
    requires c != Double
  {
    match c
    case U8 => Babl.U8
    case U16 => Babl.U16
    case U32 => Babl.U32
    case Half => Babl.Half
    case Float => Babl.Float
  }
}

=== FILE: gimp.dfy ===
/**
 * The GIMP 2.10 enumerations the plug-in reads and writes: base types,
 * drawable types, precisions, procedure statuses and run modes.
 */
module Gimp {
  import opened Wrappers

  /** `GimpImageBaseType`: the colour model of a whole image. */
  datatype BaseType = Rgb | Gray | Indexed

  /** `GimpImageType`: the pixel layout of one layer (drawable). */
  datatype ImageType = RgbImage | RgbaImage | GrayImage | GrayaImage | IndexedImage | IndexedaImage

  /** Number of channels a drawable of this type stores per pixel. */
  function ChannelCount(t: ImageType): nat {
    match t
    case RgbImage => 3
    case RgbaImage => 4
    case GrayImage => 1
    case GrayaImage => 2
    case IndexedImage => 1
    case IndexedaImage => 2
  }

  /** The base type of the images that can hold layers of type `t`. */
  function BaseTypeOf(t: ImageType): BaseType {
    match t
    case RgbImage => Rgb
    case RgbaImage => Rgb
    case GrayImage => Gray
    case GrayaImage => Gray
    case IndexedImage => Indexed
    case IndexedaImage => Indexed
  }

  /** `GimpComponentType`: the storage of one channel. */
  datatype ComponentType = U8 | U16 | U32 | Half | Float | Double

  /** The transfer curve half of a precision. */
  datatype Trc = Linear | NonLinear | Perceptual

  /** Bytes one channel of this component type occupies. */
  function ComponentBytes(c: ComponentType): nat {
    match c
    case U8 => 1
    case U16 => 2
    case U32 => 4
    case Half => 2
    case Float => 4
    case Double => 8
  }

  /** Bytes per pixel of a drawable of type `t` stored with components `c`. */
  function BytesPerPixel(t: ImageType, c: ComponentType): nat {
    ChannelCount(t) * ComponentBytes(c)
  }

  /**
   * The `GimpPrecision` value of a component type and transfer curve:
   * hundreds select the component type, the remainder 0, 50 or 75 the curve
   * (so `GIMP_PRECISION_U8_LINEAR` is 100 and the perceptual float precision is 675).
   */
  function PrecisionCode(c: ComponentType, trc: Trc): int {
    var base := match c
      case U8 => 100
      case U16 => 200
      case U32 => 300
      case Half => 500
      case Float => 600
      case Double => 700;
    var offset := match trc
      case Linear => 0
      case NonLinear => 50
      case Perceptual => 75;
    base + offset
  }

  const PRECISION_U8_LINEAR: int := 100
  const PRECISION_U16_LINEAR: int := 200
  const PRECISION_U32_LINEAR: int := 300
  const PRECISION_HALF_LINEAR: int := 500
  const PRECISION_FLOAT_LINEAR: int := 600

  function ComponentOfHundreds(h: int): Option<ComponentType> {
    match h
    case 1 => Some(U8)
    case 2 => Some(U16)
    case 3 => Some(U32)
    case 5 => Some(Half)
    case 6 => Some(Float)
    case 7 => Some(Double)
    case _ => None
  }

  function TrcOfOffset(o: int): Option<Trc> {
    match o
    case 0 => Some(Linear)
    case 50 => Some(NonLinear)
    case 75 => Some(Perceptual)
    case _ => None
  }

  /** Splits a precision value into component type and curve; `None` for values GIMP does not define. */
  function DecodePrecision(p: int): (r: Option<(ComponentType, Trc)>)
    ensures r.Some? ==> PrecisionCode(r.value.0, r.value.1) == p
  {
    if p < 0 then None
    else
      match (ComponentOfHundreds(p / 100), TrcOfOffset(p % 100))
      case (Some(c), Some(trc)) => Some((c, trc))
      case _ => None
  }

  /** Decoding the value of a precision gives that precision back. */
  lemma DecodePrecisionCode(c: ComponentType, trc: Trc)
    ensures DecodePrecision(PrecisionCode(c, trc)) == Some((c, trc))
  {
  }

  /** `GimpPDBStatusType`: the status a procedure returns. */
  datatype PdbStatus = PdbExecutionError | PdbCallingError | PdbSuccess | PdbCancel

  /** `GimpRunMode`, read from an integer parameter; other values fall through every switch on it. */
  datatype RunMode = Interactive | NonInteractive | WithLastVals | UnknownRunMode(code: int)
}

=== FILE: import_table.dfy ===
/**
 * The import format table of load.c: which babl pixel format, GIMP base type
 * and GIMP layer type a texture of a given Vulkan format is read as.
 *
 * The table is reproduced row for row, including its three irregular rows;
 * `RegularTriple` is an independent reading of what each row would be if the
 * table followed its own grouping rule, and the lemmas pin down exactly where
 * the two differ.
 */
module ImportTable {
  import opened Wrappers
  import opened VkFormats
  import Gimp
  import Babl

  /** What one row of the table yields. */
  datatype Triple = Triple(format: Babl.Descriptor, baseType: Gimp.BaseType, imageType: Gimp.ImageType)

  function Row(c: Babl.Channels, s: Babl.Sample, primed: bool, b: Gimp.BaseType, t: Gimp.ImageType): Triple {
    Triple(Babl.Descriptor(c, s, primed), b, t)
  }

  /**
   * The if/else-if chain of load.c, one case per branch, in the same order:
   * a row for exactly the listed formats, each with a layer type that belongs
   * to its base type.
   */
  function Lookup(f: VkFormat): (r: Option<Triple>)
    ensures r.Some? <==> Listed(f)
    ensures r.Some? ==> Gimp.BaseTypeOf(r.value.imageType) == r.value.baseType
  {
    match f
    case Vk(R8, UNORM) | Vk(R8, USCALED) | Vk(R8, UINT) => Some(Row(Babl.Y, Babl.U8, false, Gimp.Gray, Gimp.GrayImage))
    case Vk(R8, SNORM) | Vk(R8, SSCALED) | Vk(R8, SINT) => Some(Row(Babl.Y, Babl.S8, false, Gimp.Gray, Gimp.GrayImage))
    case Vk(R8, SRGB) => Some(Row(Babl.Y, Babl.U8, true, Gimp.Gray, Gimp.GrayImage))
    case Vk(R8G8, UNORM) | Vk(R8G8, USCALED) | Vk(R8G8, UINT) => Some(Row(Babl.YA, Babl.U8, false, Gimp.Rgb, Gimp.RgbaImage))
    case Vk(R8G8, SNORM) | Vk(R8G8, SSCALED) | Vk(R8G8, SINT) => Some(Row(Babl.YA, Babl.S8, false, Gimp.Rgb, Gimp.RgbaImage))
    case Vk(R8G8, SRGB) => Some(Row(Babl.YA, Babl.U8, true, Gimp.Rgb, Gimp.RgbaImage))
    case Vk(R8G8B8, UNORM) | Vk(R8G8B8, USCALED) | Vk(R8G8B8, UINT) => Some(Row(Babl.RGB, Babl.U8, false, Gimp.Rgb, Gimp.RgbImage))
    case Vk(R8G8B8, SNORM) | Vk(R8G8B8, SSCALED) | Vk(R8G8B8, SINT) => Some(Row(Babl.RGB, Babl.S8, false, Gimp.Rgb, Gimp.RgbImage))
    case Vk(R8G8B8, SRGB) => Some(Row(Babl.RGBA, Babl.U8, true, Gimp.Rgb, Gimp.RgbaImage))
    case Vk(R8G8B8A8, UNORM) | Vk(R8G8B8A8, USCALED) | Vk(R8G8B8A8, UINT) => Some(Row(Babl.RGBA, Babl.U8, false, Gimp.Rgb, Gimp.RgbaImage))
    case Vk(R8G8B8A8, SNORM) | Vk(R8G8B8A8, SSCALED) | Vk(R8G8B8A8, SINT) => Some(Row(Babl.RGBA, Babl.S8, false, Gimp.Rgb, Gimp.RgbaImage))
    case Vk(R8G8B8A8, SRGB) => Some(Row(Babl.RGBA, Babl.U8, true, Gimp.Rgb, Gimp.RgbaImage))
    case Vk(R16, UNORM) | Vk(R16, USCALED) | Vk(R16, UINT) => Some(Row(Babl.Y, Babl.U16, false, Gimp.Gray, Gimp.GrayImage))
    case Vk(R16, SNORM) | Vk(R16, SSCALED) | Vk(R16, SINT) => Some(Row(Babl.Y, Babl.S16, false, Gimp.Gray, Gimp.GrayImage))
    case Vk(R16, SFLOAT) => Some(Row(Babl.Y, Babl.Half, true, Gimp.Gray, Gimp.GrayImage))
    case Vk(R16G16, UNORM) | Vk(R16G16, USCALED) | Vk(R16G16, UINT) => Some(Row(Babl.YA, Babl.U16, false, Gimp.Rgb, Gimp.RgbaImage))
    case Vk(R16G16, SNORM) | Vk(R16G16, SSCALED) | Vk(R16G16, SINT) => Some(Row(Babl.YA, Babl.S16, false, Gimp.Rgb, Gimp.RgbaImage))
    case Vk(R16G16, SFLOAT) => Some(Row(Babl.YA, Babl.Half, true, Gimp.Rgb, Gimp.RgbaImage))
    case Vk(R16G16B16, UNORM) | Vk(R16G16B16, USCALED) | Vk(R16G16B16, UINT) => Some(Row(Babl.RGB, Babl.U16, false, Gimp.Rgb, Gimp.RgbImage))
    case Vk(R16G16B16, SNORM) | Vk(R16G16B16, SSCALED) | Vk(R16G16B16, SINT) => Some(Row(Babl.RGB, Babl.S16, false, Gimp.Rgb, Gimp.RgbImage))
    case Vk(R16G16B16, SFLOAT) => Some(Row(Babl.RGB, Babl.Half, true, Gimp.Rgb, Gimp.RgbImage))
    case Vk(R16G16B16A16, UNORM) | Vk(R16G16B16A16, USCALED) | Vk(R16G16B16A16, UINT) => Some(Row(Babl.RGBA, Babl.U16, false, Gimp.Rgb, Gimp.RgbImage))
    case Vk(R16G16B16A16, SNORM) | Vk(R16G16B16A16, SSCALED) | Vk(R16G16B16A16, SINT) => Some(Row(Babl.RGBA, Babl.S16, false, Gimp.Rgb, Gimp.RgbaImage))
    case Vk(R16G16B16A16, SFLOAT) => Some(Row(Babl.RGBA, Babl.Half, true, Gimp.Rgb, Gimp.RgbaImage))
    case Vk(R32, UINT) => Some(Row(Babl.Y, Babl.U32, false, Gimp.Gray, Gimp.GrayImage))
    case Vk(R32, SINT) => Some(Row(Babl.Y, Babl.S32, false, Gimp.Gray, Gimp.GrayImage))
    case Vk(R32, SFLOAT) => Some(Row(Babl.Y, Babl.Half, true, Gimp.Gray, Gimp.GrayImage))
    case Vk(R32G32, UINT) => Some(Row(Babl.YA, Babl.U32, false, Gimp.Rgb, Gimp.RgbaImage))
    case Vk(R32G32, SINT) => Some(Row(Babl.YA, Babl.S32, false, Gimp.Rgb, Gimp.RgbaImage))
    case Vk(R32G32, SFLOAT) => Some(Row(Babl.YA, Babl.Float, true, Gimp.Rgb, Gimp.RgbaImage))
    case Vk(R32G32B32, UINT) => Some(Row(Babl.RGB, Babl.U32, false, Gimp.Rgb, Gimp.RgbImage))
    case Vk(R32G32B32, SINT) => Some(Row(Babl.RGB, Babl.S32, false, Gimp.Rgb, Gimp.RgbImage))
    case Vk(R32G32B32, SFLOAT) => Some(Row(Babl.RGB, Babl.Float, true, Gimp.Rgb, Gimp.RgbImage))
    case Vk(R32G32B32A32, UINT) => Some(Row(Babl.RGBA, Babl.U32, false, Gimp.Rgb, Gimp.RgbaImage))
    case Vk(R32G32B32A32, SINT) => Some(Row(Babl.RGBA, Babl.S32, false, Gimp.Rgb, Gimp.RgbaImage))
    case Vk(R32G32B32A32, SFLOAT) => Some(Row(Babl.RGBA, Babl.Float, true, Gimp.Rgb, Gimp.RgbaImage))
    case Other(_) => None
  }

  /**
   * Resolves a raw texture format code: a row exactly for the listed codes,
   * the row of the format the code denotes; an unknown code is returned as
   * the error.
   */
  function Resolve(code: nat): (r: Result<Triple, nat>)
    ensures r.Success? <==> IsListedCode(code)
    ensures r.Success? ==> Some(r.value) == Lookup(FromCode(code))
    ensures r.Failure? ==> r.error == code
  {
    match Lookup(FromCode(code))
    case Some(t) => Success(t)
    case None => Failure(code)
  }

  // ---------------------------------------------------------------------
  // An independent reading of each row from the format's name.

  function ChannelsFor(components: nat): Babl.Channels {
    if components <= 1 then Babl.Y
    else if components == 2 then Babl.YA
    else if components == 3 then Babl.RGB
    else Babl.RGBA
  }

  predicate UnsignedSuffix(s: Suffix) {
    s in {UNORM, USCALED, UINT}
  }

  predicate SignedSuffix(s: Suffix) {
    s in {SNORM, SSCALED, SINT}
  }

  function UnsignedSample(bits: nat): Babl.Sample {
    if bits == 8 then Babl.U8 else if bits == 16 then Babl.U16 else Babl.U32
  }

  function SignedSample(bits: nat): Babl.Sample {
    if bits == 8 then Babl.S8 else if bits == 16 then Babl.S16 else Babl.S32
  }

  /** Normalized, scaled and integer suffixes collapse to one sample type; signedness is kept. */
  function SampleFor(l: Layout, s: Suffix): Babl.Sample {
    if UnsignedSuffix(s) then UnsignedSample(Bits(l))
    else if SignedSuffix(s) then SignedSample(Bits(l))
    else if s == SRGB then Babl.U8
    else if Bits(l) == 16 then Babl.Half
    else Babl.Float
  }

  /** Single-channel formats open as grey images, all others as RGB images. */
  function BaseTypeFor(components: nat): Gimp.BaseType {
    if components == 1 then Gimp.Gray else Gimp.Rgb
  }

  /** The layer type of an RGB or grey image with the format's channel count (two channels become RGBA). */
  function ImageTypeFor(components: nat): Gimp.ImageType {
    if components == 1 then Gimp.GrayImage
    else if components == 3 then Gimp.RgbImage
    else Gimp.RgbaImage
  }

  /** The row a listed format would get if the table followed its own grouping rule everywhere. */
  function RegularTriple(f: VkFormat): Triple
    requires Listed(f)
  {
    var n := Components(f.layout);
    Row(ChannelsFor(n), SampleFor(f.layout, f.suffix), f.suffix in {SRGB, SFLOAT},
        BaseTypeFor(n), ImageTypeFor(n))
  }

  /** The rows of the table that break its own grouping rule. */
  predicate IrregularRow(f: VkFormat) {
    || f == Vk(R8G8B8, SRGB)
    || (f.Vk? && f.layout == R16G16B16A16 && UnsignedSuffix(f.suffix))
    || f == Vk(R32, SFLOAT)
  }

  // ---------------------------------------------------------------------
  // Properties of the table.

  /** Every row follows the grouping rule except exactly the irregular rows. */
  lemma LookupRegular(f: VkFormat)
    requires Listed(f)
    ensures Lookup(f) == Some(RegularTriple(f)) <==> !IrregularRow(f)
  {
  }

  /** The three irregular rows, and how each departs from the grouping rule. */
  lemma IrregularRowsDepart(f: VkFormat)
    requires IrregularRow(f)
    ensures f == Vk(R8G8B8, SRGB) ==>
              Lookup(f) == Some(RegularTriple(f).(format := Babl.Descriptor(Babl.RGBA, Babl.U8, true), imageType := Gimp.RgbaImage))
    ensures f.layout == R16G16B16A16 ==> Lookup(f) == Some(RegularTriple(f).(imageType := Gimp.RgbImage))
    ensures f == Vk(R32, SFLOAT) ==> Lookup(f) == Some(RegularTriple(f).(format := Babl.Descriptor(Babl.Y, Babl.Half, true)))
  {
  }

  /** The babl names of the irregular rows, as load.c spells them. */
  lemma IrregularRowNames()
    ensures Babl.Name(Lookup(Vk(R8G8B8, SRGB)).value.format) == "R'G'B'A u8"
    ensures Babl.Name(Lookup(Vk(R16G16B16A16, UINT)).value.format) == "RGBA u16"
    ensures Babl.Name(Lookup(Vk(R32, SFLOAT)).value.format) == "Y' half"
  {
  }

  /** Formats that differ only in UNORM/USCALED/UINT (or only in SNORM/SSCALED/SINT) share one row. */
  lemma VariantsShareRow(f: VkFormat, g: VkFormat)
    requires Listed(f) && Listed(g) && f.layout == g.layout
    requires (UnsignedSuffix(f.suffix) && UnsignedSuffix(g.suffix))
          || (SignedSuffix(f.suffix) && SignedSuffix(g.suffix))
    ensures Lookup(f) == Lookup(g)
  {
  }

  /**
   * Sample type of an integer row: unsigned suffixes read as unsigned samples
   * of the layout's width, signed suffixes as signed samples.
   */
  lemma LookupSample(f: VkFormat)
    requires Listed(f)
    ensures UnsignedSuffix(f.suffix) ==>
              !Babl.Signed(Lookup(f).value.format.sample)
              && Babl.SampleBits(Lookup(f).value.format.sample) == Bits(f.layout)
    ensures SignedSuffix(f.suffix) ==>
              Babl.Signed(Lookup(f).value.format.sample)
              && Babl.SampleBits(Lookup(f).value.format.sample) == Bits(f.layout)
  {
  }

  /**
   * Sample type and curve of the other rows: SRGB reads as u8, SFLOAT as
   * half (16 bits) or float (32 bits) except the single-channel 32-bit float
   * row; perceptual (primed) exactly for SRGB and SFLOAT.
   */
  lemma LookupCurve(f: VkFormat)
    requires Listed(f)
    ensures f.suffix == SRGB ==> Lookup(f).value.format.sample == Babl.U8
    ensures f.suffix == SFLOAT ==>
              Lookup(f).value.format.sample == (if Bits(f.layout) == 16 || f.layout == R32 then Babl.Half else Babl.Float)
    ensures Lookup(f).value.format.primed <==> f.suffix in {SRGB, SFLOAT}
  {
  }

  /** Grey base type exactly for single-channel formats, RGB for all others. */
  lemma LookupBaseType(f: VkFormat)
    requires Listed(f)
    ensures Lookup(f).value.baseType == Gimp.Gray <==> Components(f.layout) == 1
    ensures Lookup(f).value.baseType == Gimp.Rgb <==> Components(f.layout) in {2, 3, 4}
  {
  }

  /** The babl format has one channel per component, except the three-component SRGB row, which reads four. */
  lemma LookupChannels(f: VkFormat)
    requires Listed(f)
    ensures Babl.ChannelCount(Lookup(f).value.format.channels) == Components(f.layout) <==> f != Vk(R8G8B8, SRGB)
  {
  }
}

=== FILE: ktx.dfy ===
/**
 * The surface of libktx the plug-in uses, as values: status codes, the
 * transcode targets, the texture create-info record, the calls the exporter
 * makes, and the texts it reports.
 */
module Ktx {
  import opened VkFormats

  /** A library error: any `KTX_error_code` but 0, which is `KTX_SUCCESS`. */
  type ErrorCode = n: nat | n > 0 witness 1

  /** `KTX_error_code`: success, or a library error. */
  datatype KtxStatus = KtxSuccess | KtxError(code: ErrorCode)

  /** `ktx_transcode_fmt_e`, as far as the loader uses it: Basis data is only ever transcoded to RGBA32. */
  datatype TranscodeFormat = Rgba32

  /** `ktxTextureCreateInfo`, as the exporter fills it in. */
  datatype CreateInfo = CreateInfo(
    vkFormat: VkFormat,
    baseWidth: nat,
    baseHeight: nat,
    baseDepth: nat,
    numDimensions: nat,
    numLevels: nat,
    numLayers: nat,
    numFaces: nat,
    isArray: bool,
    generateMipmaps: bool)

  /** Width and height of one mip level. */
  datatype LevelShape = LevelShape(width: nat, height: nat)

  /** The libktx calls an export makes on the texture it created, in order. */
  datatype KtxCall =
    | Create(info: CreateInfo)
    | IterateLevelFaces(levels: seq<LevelShape>)
    | SetImageFromMemory(level: nat, layer: nat, face: nat, size: nat)
    | CompressBasis(quality: int)
    | WriteToNamedFile

  /** A text returned to GIMP: a fixed string, or `ktxErrorString` of a library status. */
  datatype Message = Text(text: string) | KtxErrorText(code: ErrorCode)
}

=== FILE: load.dfy ===
/**
 * Loading a KTX or KTX2 file into a GIMP image (`load_ktx` in load.c).
 *
 * The texture libktx hands back is an input record; what the loader would do
 * with it is returned as a plan: which transcode it asks for, and either the
 * image it builds (size, base type, precision, and one layer per face, read
 * from level 0 and array layer 0) or the first check the texture failed.
 * KTX gives a cube map six faces and every other texture one, so an array
 * texture loads as the single layer "Layer 0".
 */
module Load {
  import opened Wrappers
  import opened VkFormats
  import opened Ktx
  import Gimp
  import Babl
  import Decimal
  import ImportTable

  /**
   * What the loader reads from an opened texture. `isCompressed` and
   * `vkFormat` are the values after the transcode step (transcoding Basis
   * data to RGBA32 replaces both); `offsetFailures` are the faces whose
   * image offset lookup would fail, a status the loader never reads.
   * The number of array layers is not here: the loader never reads it.
   */
  datatype Texture = Texture(
    isKtx2: bool,
    baseWidth: nat,
    baseHeight: nat,
    baseDepth: nat,
    numFaces: nat,
    isCubemap: bool,
    needsTranscoding: bool,
    transcodeStatus: KtxStatus,
    isCompressed: bool,
    vkFormat: nat,
    offsetFailures: set<nat>)

  /** Why a load stops, in the order the checks are made. */
  datatype LoadError =
    | OpenFailed(status: ErrorCode)
    | UnsupportedDepth
    | TranscodeFailed(status: ErrorCode)
    | CompressedTexture
    | UnknownFormat(code: nat)
    | ImageOffsetFailed(status: ErrorCode)

  /** Which image of the texture a layer is filled from. */
  datatype ImageIndex = ImageIndex(level: nat, layer: nat, face: nat)

  datatype LayerPlan = LayerPlan(
    name: string,
    position: nat,
    width: nat,
    height: nat,
    imageType: Gimp.ImageType,
    format: Babl.Descriptor,
    source: ImageIndex)

  datatype ImagePlan = ImagePlan(
    width: nat,
    height: nat,
    baseType: Gimp.BaseType,
    precision: int,
    layers: seq<LayerPlan>)

  /** What a load does: the transcode it asks for, the image or the error, and the text returned to GIMP on failure. */
  datatype LoadReport = LoadReport(
    transcodeRequest: Option<TranscodeFormat>,
    outcome: Result<ImagePlan, LoadError>,
    message: Option<Message>)

  /** Basis-compressed KTX2 data is transcoded before anything else is looked at. */
  predicate Transcodes(t: Texture) {
    t.needsTranscoding && t.isKtx2
  }

  /** The transcode the loader asks libktx for: RGBA32, once the depth check has passed. */
  function TranscodeRequest(open: KtxStatus, t: Texture): (r: Option<TranscodeFormat>)
    ensures r.Some? <==> open == KtxSuccess && t.baseDepth == 1 && t.needsTranscoding && t.isKtx2
  {
    if open == KtxSuccess && t.baseDepth == 1 && Transcodes(t) then Some(Rgba32) else None
  }

  /**
   * The checks made before the image is created, each only when the ones
   * before it passed; on success, the table row for the texture's format.
   */
  function Gate(open: KtxStatus, t: Texture): (r: Result<ImportTable.Triple, LoadError>)
    ensures r.Success? <==>
      open == KtxSuccess && t.baseDepth == 1 && !(Transcodes(t) && t.transcodeStatus.KtxError?)
      && !t.isCompressed && IsListedCode(t.vkFormat)
    ensures r.Success? ==> Some(r.value) == ImportTable.Lookup(FromCode(t.vkFormat))
    ensures (r.Failure? && r.error.OpenFailed?) <==> open.KtxError?
    ensures open.KtxError? ==> r == Failure(OpenFailed(open.code))
    ensures r == Failure(UnsupportedDepth) <==> open == KtxSuccess && t.baseDepth != 1
    ensures (r.Failure? && r.error.TranscodeFailed?) <==>
      open == KtxSuccess && t.baseDepth == 1 && Transcodes(t) && t.transcodeStatus.KtxError?
    ensures r.Failure? && r.error.TranscodeFailed? ==> t.transcodeStatus == KtxError(r.error.status)
    ensures r == Failure(CompressedTexture) <==>
      open == KtxSuccess && t.baseDepth == 1 && !(Transcodes(t) && t.transcodeStatus.KtxError?) && t.isCompressed
    ensures (r.Failure? && r.error.UnknownFormat?) <==>
      open == KtxSuccess && t.baseDepth == 1 && !(Transcodes(t) && t.transcodeStatus.KtxError?)
      && !t.isCompressed && !IsListedCode(t.vkFormat)
    ensures r.Failure? && r.error.UnknownFormat? ==> r.error.code == t.vkFormat
  {
    if open.KtxError? then Failure(OpenFailed(open.code))
    else if t.baseDepth != 1 then Failure(UnsupportedDepth)
    else if Transcodes(t) && t.transcodeStatus.KtxError? then Failure(TranscodeFailed(t.transcodeStatus.code))
    else if t.isCompressed then Failure(CompressedTexture)
    else
      match ImportTable.Resolve(t.vkFormat)
      case Success(row) => Success(row)
      case Failure(code) => Failure(UnknownFormat(code))
  }

  /** The text the loader reports for an error; `depthText` is the build's wording for a bad depth. */
  function ErrorMessage(e: LoadError, depthText: string): (m: Message)
    ensures (e.OpenFailed? || e.TranscodeFailed? || e.ImageOffsetFailed?) <==> m.KtxErrorText?
    ensures e.OpenFailed? ==> m == KtxErrorText(e.status)
    ensures e.TranscodeFailed? ==> m == KtxErrorText(e.status)
    ensures e.ImageOffsetFailed? ==> m == KtxErrorText(e.status)
    ensures e == UnsupportedDepth ==> m == Text(depthText)
    ensures e == CompressedTexture ==> m == Text("Cannot handle compressed texture")
    ensures e.UnknownFormat? ==>
      m.Text? && |m.text| > 15 && m.text[..15] == "Unknown format " && m.text[15..] == Decimal.Show(e.code)
      && Decimal.IsDigits(m.text[15..]) && Decimal.Parse(m.text[15..]) == e.code
  {
    match e
    case OpenFailed(s) => KtxErrorText(s)
    case UnsupportedDepth => Text(depthText)
    case TranscodeFailed(s) => KtxErrorText(s)
    case CompressedTexture => Text("Cannot handle compressed texture")
    case UnknownFormat(code) =>
      var m := "Unknown format " + Decimal.Show(code);
      assert m[15..] == Decimal.Show(code);
      Decimal.ParseShow(code);
      Text(m)
    case ImageOffsetFailed(s) => KtxErrorText(s)
  }

  const DEPTH_TEXT: string := "Unsupported base level depth"

  // ---------------------------------------------------------------------
  // Layer names.

  datatype Axis = X | Y | Z

  /** A cube map face: the sign and axis of the direction it faces. */
  datatype CubeFace = CubeFace(positive: bool, axis: Axis)

  /** The order KTX stores cube map faces in: +X, -X, +Y, -Y, +Z, -Z. */
  const KTX_FACE_ORDER: seq<CubeFace> := [
    CubeFace(true, X), CubeFace(false, X),
    CubeFace(true, Y), CubeFace(false, Y),
    CubeFace(true, Z), CubeFace(false, Z)
  ]

  function AxisName(a: Axis): string {
    match a
    case X => "x"
    case Y => "y"
    case Z => "z"
  }

  /** How a face is labelled, read off the face itself. */
  function CubeFaceLabel(f: CubeFace): string {
    "Face (" + (if f.positive then "positive" else "negative") + " " + AxisName(f.axis) + ")"
  }

  /**
   * The name of the layer made from face `i`: for a cube map the sign and
   * axis of the face, otherwise "Layer " and the face number in decimal.
   */
  function FaceName(cubemap: bool, i: nat): (name: string)
    ensures cubemap ==>
      |name| == 17 && name[..6] == "Face (" && name[16] == ')'
      && name[6..14] == (if i % 2 == 1 then "negative" else "positive") && name[14] == ' '
      && name[15] == (if i < 2 then 'x' else if i < 4 then 'y' else 'z')
    ensures !cubemap ==>
      |name| > 6 && name[..6] == "Layer " && name[6..] == Decimal.Show(i)
      && Decimal.IsDigits(name[6..]) && Decimal.Parse(name[6..]) == i
  {
    if cubemap then
      "Face (" + (if i % 2 == 1 then "negative" else "positive") + " "
      + (if i < 2 then "x" else if i < 4 then "y" else "z") + ")"
    else
      var name := "Layer " + Decimal.Show(i);
      assert name[6..] == Decimal.Show(i);
      Decimal.ParseShow(i);
      name
  }

  /** The six cube faces are named after the faces KTX stores in that order. */
  lemma CubeFaceNamesFollowKtxOrder(i: nat)
    requires i < 6
    ensures FaceName(true, i) == CubeFaceLabel(KTX_FACE_ORDER[i])
  {
  }

  /**
   * Layers of one load never share a name: the six faces of a cube map, and
   * "Layer i" for any count of faces, though KTX gives non-cube textures one.
   */
  lemma FaceNamesDistinct(cubemap: bool, i: nat, j: nat)
    requires i != j
    requires cubemap ==> i < 6 && j < 6
    ensures FaceName(cubemap, i) != FaceName(cubemap, j)
  {
    if cubemap {
      assert FaceName(true, i)[6] == (if i % 2 == 1 then 'n' else 'p');
      assert FaceName(true, j)[6] == (if j % 2 == 1 then 'n' else 'p');
      assert FaceName(true, i)[15] == (if i < 2 then 'x' else if i < 4 then 'y' else 'z');
      assert FaceName(true, j)[15] == (if j < 2 then 'x' else if j < 4 then 'y' else 'z');
    }
  }

  // ---------------------------------------------------------------------
  // The image.

  /** The layers for the first `n` faces: face `i` fills layer `i` at stack position `i`. */
  function FaceLayers(cubemap: bool, width: nat, height: nat, row: ImportTable.Triple, n: nat): (layers: seq<LayerPlan>)
    ensures |layers| == n
    ensures forall i :: 0 <= i < n ==>
      layers[i].name == FaceName(cubemap, i) && layers[i].position == i
      && layers[i].source == ImageIndex(0, 0, i)
    ensures forall i :: 0 <= i < n ==>
      layers[i].width == width && layers[i].height == height
      && layers[i].imageType == row.imageType && layers[i].format == row.format
  {
    if n == 0 then []
    else
      FaceLayers(cubemap, width, height, row, n - 1)
      + [LayerPlan(FaceName(cubemap, n - 1), n - 1, width, height, row.imageType, row.format, ImageIndex(0, 0, n - 1))]
  }

  /**
   * The status the check after each image offset lookup tests: not the
   * lookup's own, but the last one stored in the same variable, by the
   * transcode if it ran and by the open otherwise. Whenever the loader gets
   * that far it is success, so the check never fires.
   */
  function StatusAtOffsetCheck(open: KtxStatus, t: Texture): (s: KtxStatus)
    ensures Gate(open, t).Success? ==> s == KtxSuccess
  {
    if open == KtxSuccess && t.baseDepth == 1 && Transcodes(t) then t.transcodeStatus else open
  }

  /** The whole load: transcode request and outcome. */
  function LoadKtx(open: KtxStatus, t: Texture): (r: LoadReport)
    ensures r.transcodeRequest == TranscodeRequest(open, t)
    ensures r.outcome.Failure? <==> Gate(open, t).Failure?
    ensures r.outcome.Failure? ==> r.outcome.error == Gate(open, t).error
    ensures r.message.Some? <==> r.outcome.Failure?
    ensures r.outcome.Failure? ==> r.message == Some(ErrorMessage(r.outcome.error, DEPTH_TEXT))
    ensures Gate(open, t) == Failure(UnsupportedDepth) ==> r.message == Some(Text(DEPTH_TEXT))
    ensures r.outcome.Success? ==>
      var plan := r.outcome.value;
      var row := Gate(open, t).value;
      plan.width == t.baseWidth && plan.height == t.baseHeight
      && plan.baseType == row.baseType && plan.precision == Gimp.PRECISION_FLOAT_LINEAR
      && plan.layers == FaceLayers(t.isCubemap, t.baseWidth, t.baseHeight, row, t.numFaces)
  {
    var outcome :=
      match Gate(open, t)
      case Failure(e) => Failure(e)
      case Success(row) =>
        // The check runs once per face, so a texture without faces never reaches it.
        match if t.numFaces > 0 then StatusAtOffsetCheck(open, t) else KtxSuccess
        case KtxError(code) => Failure(ImageOffsetFailed(code))
        case KtxSuccess =>
          Success(ImagePlan(t.baseWidth, t.baseHeight, row.baseType, Gimp.PRECISION_FLOAT_LINEAR,
                            FaceLayers(t.isCubemap, t.baseWidth, t.baseHeight, row, t.numFaces)));
    LoadReport(TranscodeRequest(open, t), outcome,
               if outcome.Failure? then Some(ErrorMessage(outcome.error, DEPTH_TEXT)) else None)
  }

  /** A texture that is still compressed after the transcode step never loads. */
  lemma CompressedNeverLoads(open: KtxStatus, t: Texture)
    requires t.isCompressed
    ensures LoadKtx(open, t).outcome.Failure?
  {
  }

  /** A failed image offset lookup never changes the result: the loader re-tests a stale status. */
  lemma OffsetFailuresIgnored(open: KtxStatus, t: Texture, failures: set<nat>)
    ensures LoadKtx(open, t) == LoadKtx(open, t.(offsetFailures := failures))
  {
  }

  /**
   * A load fails on the transcode exactly when the transcode was requested
   * and libktx refused it.
   */
  lemma TranscodeFailureFollowsRequest(open: KtxStatus, t: Texture)
    ensures (LoadKtx(open, t).outcome.Failure? && LoadKtx(open, t).outcome.error.TranscodeFailed?) <==>
      LoadKtx(open, t).transcodeRequest == Some(Rgba32) && t.transcodeStatus.KtxError?
  {
  }

  /** A cube map loads as six layers named after the KTX face order. */
  lemma CubemapLayers(open: KtxStatus, t: Texture)
    requires t.isCubemap && t.numFaces == 6
    requires Gate(open, t).Success?
    ensures LoadKtx(open, t).outcome.Success?
    ensures forall i :: 0 <= i < 6 ==>
      LoadKtx(open, t).outcome.value.layers[i].name == CubeFaceLabel(KTX_FACE_ORDER[i])
  {
    forall i | 0 <= i < 6
      ensures LoadKtx(open, t).outcome.value.layers[i].name == CubeFaceLabel(KTX_FACE_ORDER[i])
    {
      CubeFaceNamesFollowKtxOrder(i);
    }
  }
}

=== FILE: mip.dfy ===
/**
 * The mip chain of an exported texture. save.c asks for
 * `log2(max(width, height)) + 1` levels; libktx then gives level `L` the size
 * `max(1, width >> L)` by `max(1, height >> L)`. The lemmas show that this
 * count is exactly the chain obtained by halving until one pixel is left.
 */
module Mip {
  import opened Ktx

  function Pow2(k: nat): (p: nat)
    ensures p >= 1
  {
    if k == 0 then 1 else 2 * Pow2(k - 1)
  }

  /** `log2` of a positive integer, rounded down (the conversion of the `log2` result to an integer). */
  function FloorLog2(n: nat): (k: nat)
    requires n >= 1
    ensures Pow2(k) <= n < Pow2(k + 1)
  {
    if n == 1 then 0 else 1 + FloorLog2(n / 2)
  }

  function Max(a: nat, b: nat): nat {
    if a >= b then a else b
  }

  /** The number of levels the exporter asks for. */
  function LevelCount(width: nat, height: nat): (n: nat)
    requires width >= 1 && height >= 1
    ensures n >= 1
    ensures Pow2(n - 1) <= Max(width, height) < Pow2(n)
  {
    FloorLog2(Max(width, height)) + 1
  }

  lemma {:induction false} Pow2Mono(a: nat, b: nat)
    requires a <= b
    ensures Pow2(a) <= Pow2(b)
    decreases b
  {
    if a < b {
      Pow2Mono(a, b - 1);
    }
  }

  /** The bound in `LevelCount`'s contract determines the count. */
  lemma LevelCountIs(width: nat, height: nat, n: nat)
    requires width >= 1 && height >= 1 && n >= 1
    requires Pow2(n - 1) <= Max(width, height) < Pow2(n)
    ensures LevelCount(width, height) == n
  {
    var m := LevelCount(width, height);
    if m < n {
      Pow2Mono(m, n - 1);
    } else if m > n {
      Pow2Mono(n, m - 1);
    }
  }

  /** Three sizes worked out: 1x1 needs one level, 64x64 seven and 300x200 nine. */
  lemma LevelCountExamples(width: nat, height: nat, n: nat)
    requires (width, height, n) in {(1, 1, 1), (64, 64, 7), (300, 200, 9)}
    ensures LevelCount(width, height) == n
  {
    assert Pow2(1) == 2;
    assert Pow2(2) == 4;
    assert Pow2(3) == 8;
    assert Pow2(4) == 16;
    assert Pow2(5) == 32;
    assert Pow2(6) == 64;
    assert Pow2(7) == 128;
    assert Pow2(8) == 256;
    assert Pow2(9) == 512;
    LevelCountIs(width, height, n);
  }

  /** `n >> k`: `n` halved `k` times, rounding down. */
  function Shift(n: nat, k: nat): nat {
    if k == 0 then n else Shift(n / 2, k - 1)
  }

  /** The size libktx gives level `level` of a texture with the given base size. */
  function LevelSize(width: nat, height: nat, level: nat): LevelShape {
    LevelShape(Max(1, Shift(width, level)), Max(1, Shift(height, level)))
  }

  /** The sizes of levels `0 .. count - 1`, the order in which the exporter fills them. */
  function LevelSizes(width: nat, height: nat, count: nat): (shapes: seq<LevelShape>)
    ensures |shapes| == count
    ensures forall l :: 0 <= l < count ==> shapes[l] == LevelSize(width, height, l)
  {
    seq(count, l requires 0 <= l => LevelSize(width, height, l))
  }

  /** The chain made by halving each side (never below one) until a single pixel is left. */
  function HalvingChain(width: nat, height: nat): seq<LevelShape>
    requires width >= 1 && height >= 1
    decreases width + height
  {
    if width == 1 && height == 1 then [LevelShape(1, 1)]
    else [LevelShape(width, height)] + HalvingChain(Max(1, width / 2), Max(1, height / 2))
  }

  lemma {:induction false} ShiftOfOne(n: nat, k: nat)
    requires n <= 1
    ensures Shift(n, k) <= 1
  {
    if k > 0 {
      ShiftOfOne(n / 2, k - 1);
    }
  }

  /** Halving a side first and then shifting by `level` is shifting by `level + 1`. */
  lemma HalvedSize(w: nat, level: nat)
    requires w >= 1
    ensures Max(1, Shift(Max(1, w / 2), level)) == Max(1, Shift(w, level + 1))
  {
    if w == 1 {
      ShiftOfOne(1, level);
      ShiftOfOne(0, level);
    }
  }

  /** One fewer level is needed once both sides are halved. */
  lemma LevelCountOfHalved(width: nat, height: nat)
    requires width >= 1 && height >= 1 && !(width == 1 && height == 1)
    ensures LevelCount(Max(1, width / 2), Max(1, height / 2)) + 1 == LevelCount(width, height)
  {
    assert Max(Max(1, width / 2), Max(1, height / 2)) == Max(width, height) / 2;
  }

  /** Levels `1 .. count` of a texture are levels `0 .. count - 1` of its halved base. */
  lemma SizesOfHalved(width: nat, height: nat, count: nat)
    requires width >= 1 && height >= 1
    ensures LevelSizes(width, height, count + 1)
         == [LevelShape(width, height)] + LevelSizes(Max(1, width / 2), Max(1, height / 2), count)
  {
    var w2, h2 := Max(1, width / 2), Max(1, height / 2);
    var left := LevelSizes(width, height, count + 1);
    var right := [LevelShape(width, height)] + LevelSizes(w2, h2, count);
    forall l | 0 <= l < count + 1
      ensures left[l] == right[l]
    {
      if l > 0 {
        HalvedSize(width, l - 1);
        HalvedSize(height, l - 1);
      }
    }
  }

  /**
   * The level count save.c computes yields exactly the halving chain: the
   * first level is the base size, each level halves the one before, and
   * the last level is one pixel.
   */
  lemma {:induction false} LevelSizesAreHalvingChain(width: nat, height: nat)
    requires width >= 1 && height >= 1
    ensures LevelSizes(width, height, LevelCount(width, height)) == HalvingChain(width, height)
    decreases width + height
  {
    if width == 1 && height == 1 {
      assert LevelCount(1, 1) == 1;
    } else {
      var w2, h2 := Max(1, width / 2), Max(1, height / 2);
      var n := LevelCount(w2, h2);
      LevelCountOfHalved(width, height);
      LevelSizesAreHalvingChain(w2, h2);
      SizesOfHalved(width, height, n);
    }
  }

  /** The last level is a single pixel, and every level before it is larger. */
  lemma ChainEndsAtOnePixel(width: nat, height: nat)
    requires width >= 1 && height >= 1
    ensures var chain := HalvingChain(width, height);
      chain[|chain| - 1] == LevelShape(1, 1)
      && forall l :: 0 <= l < |chain| - 1 ==> chain[l] != LevelShape(1, 1)
    decreases width + height
  {
    if !(width == 1 && height == 1) {
      ChainEndsAtOnePixel(Max(1, width / 2), Max(1, height / 2));
    }
  }
}

=== FILE: plugin.dfy ===
/**
 * The older, self-contained build of the plug-in (plugin.c). Its import
 * table is the same text as load.c's (plugin.c:61-233 against
 * load.c:58-230), so it is modelled by `ImportTable.Lookup` once; what
 * differs is modelled here: the depth message, the single-layer import, the
 * linear-only export table, the single-level export from one memory buffer,
 * and the dispatch by procedure name.
 */
module Plugin {
  import opened Wrappers
  import opened VkFormats
  import opened Ktx
  import opened Gimp
  import ImportTable
  import ExportTable
  import Load
  import Save

  // ---------------------------------------------------------------------
  // Import.

  const LEGACY_DEPTH_TEXT: string := "Invalid base level depth"

  /** The one layer plugin.c's loader makes. */
  function ImageLayer(t: Load.Texture, row: ImportTable.Triple): Load.LayerPlan {
    Load.LayerPlan("Image", 0, t.baseWidth, t.baseHeight, row.imageType, row.format, Load.ImageIndex(0, 0, 0))
  }

  /** plugin.c's `load`: load.c's checks, then a single layer from level 0, layer 0, face 0. */
  function LegacyLoad(open: KtxStatus, t: Load.Texture): (r: Load.LoadReport)
    ensures r.transcodeRequest == Load.TranscodeRequest(open, t)
    ensures r.outcome.Failure? <==> Load.Gate(open, t).Failure?
    ensures r.outcome.Failure? ==> r.outcome.error == Load.Gate(open, t).error
    ensures r.message.Some? <==> r.outcome.Failure?
    ensures r.outcome.Failure? ==> r.message == Some(Load.ErrorMessage(r.outcome.error, LEGACY_DEPTH_TEXT))
    ensures Load.Gate(open, t) == Failure(Load.UnsupportedDepth) ==> r.message == Some(Text(LEGACY_DEPTH_TEXT))
    ensures r.outcome.Success? ==>
      var plan := r.outcome.value;
      var row := Load.Gate(open, t).value;
      && plan.width == t.baseWidth && plan.height == t.baseHeight
      && plan.baseType == row.baseType && plan.precision == PRECISION_FLOAT_LINEAR
      && |plan.layers| == 1
      && plan.layers[0].name == "Image" && plan.layers[0].position == 0
      && plan.layers[0].source == Load.ImageIndex(0, 0, 0)
      && plan.layers[0].width == t.baseWidth && plan.layers[0].height == t.baseHeight
      && plan.layers[0].imageType == row.imageType && plan.layers[0].format == row.format
  {
    var outcome :=
      match Load.Gate(open, t)
      case Failure(e) => Failure(e)
      case Success(row) =>
        // The stale status is tested once, for face 0.
        match Load.StatusAtOffsetCheck(open, t)
        case KtxError(code) => Failure(Load.ImageOffsetFailed(code))
        case KtxSuccess =>
          Success(Load.ImagePlan(t.baseWidth, t.baseHeight, row.baseType, PRECISION_FLOAT_LINEAR, [ImageLayer(t, row)]));
    Load.LoadReport(Load.TranscodeRequest(open, t), outcome,
                    if outcome.Failure? then Some(Load.ErrorMessage(outcome.error, LEGACY_DEPTH_TEXT)) else None)
  }

  /**
   * The two loaders accept and refuse the same textures for the same
   * reasons; where load.c makes one layer per face, plugin.c keeps face 0
   * only, under another name.
   */
  lemma LoadersAgree(open: KtxStatus, t: Load.Texture)
    ensures LegacyLoad(open, t).transcodeRequest == Load.LoadKtx(open, t).transcodeRequest
    ensures LegacyLoad(open, t).outcome.Failure? <==> Load.LoadKtx(open, t).outcome.Failure?
    ensures LegacyLoad(open, t).outcome.Failure? ==>
      LegacyLoad(open, t).outcome.error == Load.LoadKtx(open, t).outcome.error
    ensures LegacyLoad(open, t).message == Load.LoadKtx(open, t).message
      <==> Load.Gate(open, t) != Failure(Load.UnsupportedDepth)
    ensures LegacyLoad(open, t).outcome.Success? && t.numFaces >= 1 ==>
      LegacyLoad(open, t).outcome.value.layers[0]
        == Load.LoadKtx(open, t).outcome.value.layers[0].(name := "Image")
  {
  }

  /** Only the depth message is worded differently. */
  lemma DepthMessagesDiffer(e: Load.LoadError)
    ensures Load.ErrorMessage(e, LEGACY_DEPTH_TEXT) == Load.ErrorMessage(e, Load.DEPTH_TEXT) <==> e != Load.UnsupportedDepth
  {
  }

  // ---------------------------------------------------------------------
  // Export.

  /** The switch of plugin.c's `save`, one case per label: linear precisions only. */
  function LegacySaveFormat(t: ImageType, p: int): (r: Result<VkFormat, ExportTable.SaveError>)
    ensures r == Failure(ExportTable.UnhandledFormat) <==> t in {IndexedImage, IndexedaImage}
    ensures r.Success? ==> Listed(r.value) && r.value.suffix != SRGB
  {
    match t
    case GrayImage => (
      match p
      case 100 => Success(Vk(R8, UNORM))
      case 200 => Success(Vk(R16, UNORM))
      case 300 => Success(Vk(R32, UINT))
      case 500 => Success(Vk(R16, SFLOAT))
      case 600 => Success(Vk(R32, SFLOAT))
      case _ => Failure(ExportTable.UnhandledPrecision))
    case GrayaImage => (
      match p
      case 100 => Success(Vk(R8G8, UNORM))
      case 200 => Success(Vk(R16G16, UNORM))
      case 300 => Success(Vk(R32G32, UINT))
      case 500 => Success(Vk(R16G16, SFLOAT))
      case 600 => Success(Vk(R32G32, SFLOAT))
      case _ => Failure(ExportTable.UnhandledPrecision))
    case RgbImage => (
      match p
      case 100 => Success(Vk(R8G8B8, UNORM))
      case 200 => Success(Vk(R16G16B16, UNORM))
      case 300 => Success(Vk(R32G32B32, UINT))
      case 500 => Success(Vk(R16G16B16, SFLOAT))
      case 600 => Success(Vk(R32G32B32, SFLOAT))
      case _ => Failure(ExportTable.UnhandledPrecision))
    case RgbaImage => (
      match p
      case 100 => Success(Vk(R8G8B8A8, UNORM))
      case 200 => Success(Vk(R16G16B16A16, UNORM))
      case 300 => Success(Vk(R32G32B32A32, UINT))
      case 500 => Success(Vk(R16G16B16A16, SFLOAT))
      case 600 => Success(Vk(R32, SFLOAT))
      case _ => Failure(ExportTable.UnhandledPrecision))
    case _ => Failure(ExportTable.UnhandledFormat)
  }

  /** A precision GIMP defines with the linear curve and a component type the plug-in writes. */
  predicate LinearPrecision(p: int) {
    DecodePrecision(p).Some? && DecodePrecision(p).value.1 == Linear && DecodePrecision(p).value.0 != Double
  }

  /**
   * Where the two export tables agree and where they differ: on linear
   * precisions they agree except RGBA float, which plugin.c writes as a
   * one-channel format; every other precision save.c accepts, plugin.c
   * refuses.
   */
  lemma ExportTablesCompared(t: ImageType, p: int)
    ensures t in {IndexedImage, IndexedaImage} ==>
      LegacySaveFormat(t, p) == ExportTable.SaveFormat(t, p) == Failure(ExportTable.UnhandledFormat)
    ensures LinearPrecision(p) && !(t == RgbaImage && p == PRECISION_FLOAT_LINEAR) ==>
      LegacySaveFormat(t, p) == ExportTable.SaveFormat(t, p)
    ensures LegacySaveFormat(RgbaImage, PRECISION_FLOAT_LINEAR) == Success(Vk(R32, SFLOAT))
    ensures ExportTable.SaveFormat(RgbaImage, PRECISION_FLOAT_LINEAR) == Success(Vk(R32G32B32A32, SFLOAT))
    ensures t !in {IndexedImage, IndexedaImage} && !LinearPrecision(p) ==>
      LegacySaveFormat(t, p) == Failure(ExportTable.UnhandledPrecision)
  {
    ExportTable.SaveFormatFollowsRule(t, p);
    if LinearPrecision(p) {
      DecodePrecisionCode(DecodePrecision(p).value.0, Linear);
    }
  }

  /** One past the largest `ktx_uint32_t`. */
  const UINT32_LIMIT: nat := 0x1_0000_0000

  /** The size of the whole drawable of type `t` at precision `p`, in bytes. */
  function ImageBytes(t: ImageType, p: int, width: nat, height: nat): nat
    requires DecodePrecision(p).Some?
  {
    width * height * BytesPerPixel(t, DecodePrecision(p).value.0)
  }

  /**
   * The buffer size plugin.c allocates and hands to libktx. It is computed
   * from the 32-bit unsigned `baseWidth` and `baseHeight`, so the product
   * wraps: it is the drawable's size only while that stays below 4 GiB.
   */
  function DrawableBytes(t: ImageType, p: int, width: nat, height: nat): (n: nat)
    requires DecodePrecision(p).Some?
    ensures n < UINT32_LIMIT
    ensures (ImageBytes(t, p, width, height) - n) % UINT32_LIMIT == 0
    ensures ImageBytes(t, p, width, height) < UINT32_LIMIT <==> n == ImageBytes(t, p, width, height)
  {
    ImageBytes(t, p, width, height) % UINT32_LIMIT
  }

  /**
   * A 16384 × 16384 RGBA float drawable needs exactly 4 GiB, so the buffer
   * plugin.c allocates for it is empty while the whole drawable is copied in.
   */
  lemma BufferSizeWraps()
    ensures ImageBytes(RgbaImage, PRECISION_FLOAT_LINEAR, 16384, 16384) == UINT32_LIMIT
    ensures DrawableBytes(RgbaImage, PRECISION_FLOAT_LINEAR, 16384, 16384) == 0
  {
  }

  /** plugin.c's `save`: one level, filled from one buffer holding the whole drawable. */
  function LegacySave(req: Save.SaveRequest, lib: Save.LibraryOutcomes): (r: Save.SaveReport)
    ensures req.exportCancelled ==> r == Save.SaveReport(PdbCancel, Some(Text(Save.DEFAULT_ERROR_TEXT)), [], None)
    ensures !req.exportCancelled && LegacySaveFormat(req.imageType, req.precision).Failure? ==>
      r == Save.SaveReport(PdbExecutionError, Some(Text(ExportTable.SaveErrorText(LegacySaveFormat(req.imageType, req.precision).error))), [], None)
    ensures r.status == PdbSuccess <==> r.message.None?
    ensures r.calls != [] ==>
      && LegacySaveFormat(req.imageType, req.precision).Success?
      && r.calls[0] == Create(Save.CreateInfoFor(LegacySaveFormat(req.imageType, req.precision).value, req.width, req.height, 1))
    ensures |r.calls| >= 2 ==> r.calls[1] == SetImageFromMemory(0, 0, 0, DrawableBytes(req.imageType, req.precision, req.width, req.height))
    ensures !req.exportCancelled && LegacySaveFormat(req.imageType, req.precision).Success? ==>
      var options := Save.ReadOptions(req.runMode, req.nparams, req.superCompressionParam, req.stored, req.dialog);
      var format := LegacySaveFormat(req.imageType, req.precision).value;
      if options.Failure? then
        r == Save.SaveReport(options.error, Some(Text(Save.DEFAULT_ERROR_TEXT)), [], None)
      else
        DecodePrecision(req.precision).Some?
        && (r.status, r.message, r.calls)
          == Save.RunLibrary(Save.CreateInfoFor(format, req.width, req.height, 1),
                             SetImageFromMemory(0, 0, 0, DrawableBytes(req.imageType, req.precision, req.width, req.height)),
                             options.value.superCompression, lib)
        && r.remembered == (if options.value.remember then Some(options.value.superCompression) else None)
  {
    if req.exportCancelled then Save.SaveReport(PdbCancel, Some(Text(Save.DEFAULT_ERROR_TEXT)), [], None)
    else
      match LegacySaveFormat(req.imageType, req.precision)
      case Failure(e) => Save.SaveReport(PdbExecutionError, Some(Text(ExportTable.SaveErrorText(e))), [], None)
      case Success(format) =>
        match Save.ReadOptions(req.runMode, req.nparams, req.superCompressionParam, req.stored, req.dialog)
        case Failure(status) => Save.SaveReport(status, Some(Text(Save.DEFAULT_ERROR_TEXT)), [], None)
        case Success(options) =>
          ExportTablesCompared(req.imageType, req.precision);
          var fill := SetImageFromMemory(0, 0, 0, DrawableBytes(req.imageType, req.precision, req.width, req.height));
          var (status, message, calls) := Save.RunLibrary(Save.CreateInfoFor(format, req.width, req.height, 1), fill, options.superCompression, lib);
          Save.SaveReport(status, message, calls, if options.remember then Some(options.superCompression) else None)
  }

  /**
   * Once both tables accept the drawable, the two exporters read the same
   * options and end the same way: same status, same message, same option
   * remembered; only the texture they describe and fill differs.
   */
  lemma SavesEndAlike(req: Save.SaveRequest, lib: Save.LibraryOutcomes)
    requires req.width >= 1 && req.height >= 1
    requires LegacySaveFormat(req.imageType, req.precision).Success?
    requires ExportTable.SaveFormat(req.imageType, req.precision).Success?
    ensures LegacySave(req, lib).status == Save.SaveKtx(req, lib).status
    ensures LegacySave(req, lib).message == Save.SaveKtx(req, lib).message
    ensures LegacySave(req, lib).remembered == Save.SaveKtx(req, lib).remembered
    ensures |LegacySave(req, lib).calls| == |Save.SaveKtx(req, lib).calls|
  {
  }

  /**
   * The drawable copied into the buffer is exactly one level-0 image of
   * the chosen format, except for RGBA float, where the drawable's 16 bytes
   * per pixel meet a 4-byte texel.
   */
  lemma BufferMatchesTexel(t: ImageType, p: int, width: nat, height: nat)
    requires LegacySaveFormat(t, p).Success?
    ensures DecodePrecision(p).Some?
    ensures var texel := TexelBytes(LegacySaveFormat(t, p).value.layout);
      if t == RgbaImage && p == PRECISION_FLOAT_LINEAR then
        ImageBytes(t, p, width, height) == 4 * (width * height * texel)
      else
        ImageBytes(t, p, width, height) == width * height * texel
  {
    ExportTablesCompared(t, p);
  }

  // ---------------------------------------------------------------------
  // Dispatch.

  const LOAD_PROC: string := "file-ktx2-load"
  const SAVE_PROC: string := "file-ktx2-save"

  datatype Procedure = LoadProcedure | SaveProcedure

  /** `run`: the procedure a call name selects; any other name does nothing. */
  function Dispatch(name: string): (r: Option<Procedure>)
    ensures r == Some(LoadProcedure) <==> name == LOAD_PROC
    ensures r == Some(SaveProcedure) <==> name == SAVE_PROC
    ensures r == None <==> name != LOAD_PROC && name != SAVE_PROC
  {
    if name == LOAD_PROC then Some(LoadProcedure)
    else if name == SAVE_PROC then Some(SaveProcedure)
    else None
  }
}

=== FILE: save.dfy ===
/**
 * Exporting a drawable as KTX2 (`save_ktx` in save.c). GIMP's answers
 * (export dialog, stored options, options dialog) and libktx's statuses are
 * inputs; the result is the procedure status, the message returned with it,
 * the libktx calls made in order, and the options handed back to GIMP for
 * the next run.
 */
module Save {
  import opened Wrappers
  import opened VkFormats
  import opened Ktx
  import opened Gimp
  import ExportTable
  import Mip

  /** What the options dialog ends with: OK and the slider value, or cancel. */
  datatype DialogOutcome = DialogOk(superCompression: int) | DialogCancelled

  /** What GIMP and the user supply to one export. */
  datatype SaveRequest = SaveRequest(
    runMode: RunMode,
    nparams: int,
    superCompressionParam: int,
    exportCancelled: bool,
    imageType: ImageType,
    precision: int,
    width: nat,
    height: nat,
    stored: Option<int>,
    dialog: DialogOutcome)

  /** The statuses libktx returns from the calls it receives. */
  datatype LibraryOutcomes = LibraryOutcomes(create: KtxStatus, fill: KtxStatus, compress: KtxStatus, write: KtxStatus)

  /**
   * `message` is present exactly when the procedure returns two values;
   * `remembered` is the option value stored for the next interactive run.
   */
  datatype SaveReport = SaveReport(status: PdbStatus, message: Option<Message>, calls: seq<KtxCall>, remembered: Option<int>)

  /** The options the procedure starts from: no supercompression. */
  const DEFAULT_SUPER_COMPRESSION: int := 0

  /** The text returned with any failure that does not set its own. */
  const DEFAULT_ERROR_TEXT: string := "Error while saveing"

  /** The options as read for a run mode, with the value to remember; or the status to stop with. */
  datatype Options = Options(superCompression: int, remember: bool)

  function ReadOptions(mode: RunMode, nparams: int, param: int, stored: Option<int>, dialog: DialogOutcome): (r: Result<Options, PdbStatus>)
    ensures r.Failure? <==>
      (mode == Interactive && dialog == DialogCancelled)
      || (mode == NonInteractive && !(nparams == 6 && 0 <= param <= 255))
    ensures r.Failure? ==> r.error == (if mode == Interactive then PdbCancel else PdbCallingError)
    ensures r.Success? && mode == Interactive ==> dialog.DialogOk? && r.value.superCompression == dialog.superCompression
    ensures r.Success? && mode == NonInteractive ==> r.value.superCompression == param
    ensures r.Success? && mode == WithLastVals ==>
      r.value.superCompression == (if stored.Some? then stored.value else DEFAULT_SUPER_COMPRESSION)
    ensures r.Success? && mode.UnknownRunMode? ==> r.value.superCompression == DEFAULT_SUPER_COMPRESSION
    ensures r.Success? ==> (r.value.remember <==> mode == Interactive)
  {
    match mode
    case Interactive => (
      match dialog
      case DialogOk(v) => Success(Options(v, true))
      case DialogCancelled => Failure(PdbCancel))
    case NonInteractive =>
      if nparams == 6 && 0 <= param <= 255 then Success(Options(param, false)) else Failure(PdbCallingError)
    case WithLastVals =>
      Success(Options(if stored.Some? then stored.value else DEFAULT_SUPER_COMPRESSION, false))
    case UnknownRunMode(_) => Success(Options(DEFAULT_SUPER_COMPRESSION, false))
  }

  /**
   * The texture save.c creates: the chosen format at the drawable's size
   * with the given number of levels, always a plain 2D image of depth 1 with
   * one layer and one face, not an array, with no mipmaps generated by libktx.
   */
  function CreateInfoFor(format: VkFormat, width: nat, height: nat, levels: nat): (info: CreateInfo)
    ensures info.vkFormat == format && info.baseWidth == width && info.baseHeight == height && info.numLevels == levels
    ensures info.baseDepth == 1 && info.numDimensions == 2 && info.numLayers == 1 && info.numFaces == 1
    ensures !info.isArray && !info.generateMipmaps
  {
    CreateInfo(format, width, height, 1, 2, levels, 1, 1, false, false)
  }

  /**
   * The tail of an export once the texture is described: create, fill the
   * levels, supercompress if asked, write. Each failing call ends the
   * export with libktx's text for its status; the write's status is not
   * looked at.
   */
  function RunLibrary(info: CreateInfo, fill: KtxCall, level: int, lib: LibraryOutcomes): (r: (PdbStatus, Option<Message>, seq<KtxCall>))
    requires fill.IterateLevelFaces? || fill.SetImageFromMemory?
    ensures |r.2| >= 1 && r.2[0] == Create(info)
    ensures lib.create.KtxError? ==> r == (PdbExecutionError, Some(KtxErrorText(lib.create.code)), [Create(info)])
    ensures lib.create == KtxSuccess && lib.fill.KtxError? ==>
      r == (PdbExecutionError, Some(KtxErrorText(lib.fill.code)), [Create(info), fill])
    ensures lib.create == KtxSuccess && lib.fill == KtxSuccess && level != 0 && lib.compress.KtxError? ==>
      r == (PdbExecutionError, Some(KtxErrorText(lib.compress.code)), [Create(info), fill, CompressBasis(level)])
    ensures r.0 == PdbSuccess ==>
      r.2 == [Create(info), fill] + (if level != 0 then [CompressBasis(level)] else []) + [WriteToNamedFile]
    ensures r.0 == PdbSuccess <==>
      lib.create == KtxSuccess && lib.fill == KtxSuccess && (level == 0 || lib.compress == KtxSuccess)
    ensures r.0 == PdbSuccess ==> r.1 == None && r.2[|r.2| - 1] == WriteToNamedFile
    ensures r.0 != PdbSuccess ==> r.0 == PdbExecutionError && r.1.Some? && r.1.value.KtxErrorText?
    ensures WriteToNamedFile in r.2 <==> r.0 == PdbSuccess
    ensures |r.2| >= 2 <==> lib.create == KtxSuccess
    ensures |r.2| >= 2 ==> r.2[1] == fill
    ensures CompressBasis(level) in r.2 <==> level != 0 && lib.create == KtxSuccess && lib.fill == KtxSuccess
  {
    if lib.create.KtxError? then (PdbExecutionError, Some(KtxErrorText(lib.create.code)), [Create(info)])
    else if lib.fill.KtxError? then (PdbExecutionError, Some(KtxErrorText(lib.fill.code)), [Create(info), fill])
    else if level != 0 && lib.compress.KtxError? then
      (PdbExecutionError, Some(KtxErrorText(lib.compress.code)), [Create(info), fill, CompressBasis(level)])
    else
      var compress := if level != 0 then [CompressBasis(level)] else [];
      (PdbSuccess, None, [Create(info), fill] + compress + [WriteToNamedFile])
  }

  /** One export as save.c performs it. GIMP never hands over an empty drawable. */
  function SaveKtx(req: SaveRequest, lib: LibraryOutcomes): (r: SaveReport)
    requires req.width >= 1 && req.height >= 1
    ensures req.exportCancelled ==> r == SaveReport(PdbCancel, Some(Text(DEFAULT_ERROR_TEXT)), [], None)
    ensures !req.exportCancelled && ExportTable.SaveFormat(req.imageType, req.precision).Failure? ==>
      r == SaveReport(PdbExecutionError, Some(Text(ExportTable.SaveErrorText(ExportTable.SaveFormat(req.imageType, req.precision).error))), [], None)
    ensures r.status == PdbSuccess <==> r.message.None?
    ensures r.calls != [] ==>
      && ExportTable.SaveFormat(req.imageType, req.precision).Success?
      && r.calls[0] == Create(CreateInfoFor(ExportTable.SaveFormat(req.imageType, req.precision).value,
                                            req.width, req.height, Mip.LevelCount(req.width, req.height)))
    ensures |r.calls| >= 2 ==> r.calls[1] == IterateLevelFaces(Mip.HalvingChain(req.width, req.height))
    ensures |r.calls| >= 2 ==> r.calls[0].info.numLevels == |r.calls[1].levels|
    ensures !req.exportCancelled && ExportTable.SaveFormat(req.imageType, req.precision).Success? ==>
      var options := ReadOptions(req.runMode, req.nparams, req.superCompressionParam, req.stored, req.dialog);
      var format := ExportTable.SaveFormat(req.imageType, req.precision).value;
      var levels := Mip.LevelCount(req.width, req.height);
      if options.Failure? then
        r == SaveReport(options.error, Some(Text(DEFAULT_ERROR_TEXT)), [], None)
      else
        (r.status, r.message, r.calls)
          == RunLibrary(CreateInfoFor(format, req.width, req.height, levels),
                        IterateLevelFaces(Mip.HalvingChain(req.width, req.height)), options.value.superCompression, lib)
        && r.remembered == (if options.value.remember then Some(options.value.superCompression) else None)
    ensures r.remembered.Some? ==> req.runMode == Interactive && req.dialog.DialogOk? && r.remembered == Some(req.dialog.superCompression)
  {
    if req.exportCancelled then SaveReport(PdbCancel, Some(Text(DEFAULT_ERROR_TEXT)), [], None)
    else
      match ExportTable.SaveFormat(req.imageType, req.precision)
      case Failure(e) => SaveReport(PdbExecutionError, Some(Text(ExportTable.SaveErrorText(e))), [], None)
      case Success(format) =>
        match ReadOptions(req.runMode, req.nparams, req.superCompressionParam, req.stored, req.dialog)
        case Failure(status) => SaveReport(status, Some(Text(DEFAULT_ERROR_TEXT)), [], None)
        case Success(options) =>
          var levels := Mip.LevelCount(req.width, req.height);
          Mip.LevelSizesAreHalvingChain(req.width, req.height);
          var fill := IterateLevelFaces(Mip.LevelSizes(req.width, req.height, levels));
          var (status, message, calls) := RunLibrary(CreateInfoFor(format, req.width, req.height, levels), fill, options.superCompression, lib);
          SaveReport(status, message, calls, if options.remember then Some(options.superCompression) else None)
  }

  /**
   * What an interactive export remembers is what a later export with the
   * last values reads back, unchanged.
   */
  lemma LastValuesRecallDialog(req: SaveRequest, lib: LibraryOutcomes, next: SaveRequest)
    requires req.width >= 1 && req.height >= 1
    requires SaveKtx(req, lib).remembered.Some?
    requires next.runMode == WithLastVals && next.stored == SaveKtx(req, lib).remembered
    ensures ReadOptions(next.runMode, next.nparams, next.superCompressionParam, next.stored, next.dialog)
         == Success(Options(req.dialog.superCompression, false))
  {
  }

  /** Whatever the write reports, a save that reached it succeeds. */
  lemma WriteStatusIgnored(req: SaveRequest, lib: LibraryOutcomes, write: KtxStatus)
    requires req.width >= 1 && req.height >= 1
    ensures SaveKtx(req, lib) == SaveKtx(req, lib.(write := write))
  {
  }

  /** A refused drawable type or precision stops the export before any option is read or asked for. */
  lemma FormatCheckedFirst(req: SaveRequest, other: SaveRequest, lib: LibraryOutcomes)
    requires req.width >= 1 && req.height >= 1 && other.width >= 1 && other.height >= 1
    requires !req.exportCancelled && ExportTable.SaveFormat(req.imageType, req.precision).Failure?
    requires other == req.(runMode := other.runMode, nparams := other.nparams,
                           superCompressionParam := other.superCompressionParam,
                           stored := other.stored, dialog := other.dialog)
    ensures SaveKtx(req, lib) == SaveKtx(other, lib)
    ensures SaveKtx(req, lib).status == PdbExecutionError
  {
  }

  /** Supercompression is requested exactly when the option is non-zero and the levels were filled. */
  lemma CompressionOnlyWhenAsked(req: SaveRequest, lib: LibraryOutcomes)
    requires req.width >= 1 && req.height >= 1
    ensures forall q :: CompressBasis(q) in SaveKtx(req, lib).calls ==> q != 0 && lib.create == KtxSuccess && lib.fill == KtxSuccess
  {
  }
}

=== FILE: vk_format.dfy ===
/**
 * The Vulkan pixel formats a KTX/KTX2 texture can declare, as far as the
 * importer and exporter name them, together with their numeric codes in the
 * Vulkan `VkFormat` enumeration.
 *
 * A Vulkan format name such as `VK_FORMAT_R16G16B16_SFLOAT` is a channel
 * layout (`R16G16B16`) followed by a numeric suffix (`SFLOAT`); a listed
 * format is modelled as exactly that pair. A texture stores its format as a
 * raw 32-bit code; `FromCode` turns such a code into a `VkFormat`, keeping
 * every code the plug-in does not list as `Other(id)`.
 */
module VkFormats {

  /** The channel layout part of a format name: how many components, how many bits each. */
  datatype Layout =
    | R8 | R8G8 | R8G8B8 | R8G8B8A8
    | R16 | R16G16 | R16G16B16 | R16G16B16A16
    | R32 | R32G32 | R32G32B32 | R32G32B32A32

  /** The numeric suffix of a format name. */
  datatype Suffix = UNORM | SNORM | USCALED | SSCALED | UINT | SINT | SRGB | SFLOAT

  /** A listed format `Vk(layout, suffix)`, or any other code of the enumeration. */
  datatype Format = Vk(layout: Layout, suffix: Suffix) | Other(id: nat)

  function Components(l: Layout): nat {
    match l
    case R8 | R16 | R32 => 1
    case R8G8 | R16G16 | R32G32 => 2
    case R8G8B8 | R16G16B16 | R32G32B32 => 3
    case R8G8B8A8 | R16G16B16A16 | R32G32B32A32 => 4
  }

  function Bits(l: Layout): nat {
    match l
    case R8 | R8G8 | R8G8B8 | R8G8B8A8 => 8
    case R16 | R16G16 | R16G16B16 | R16G16B16A16 => 16
    case R32 | R32G32 | R32G32B32 | R32G32B32A32 => 32
  }

  /** Bytes one texel of the layout occupies. */
  function TexelBytes(l: Layout): nat {
    Components(l) * (Bits(l) / 8)
  }

  /**
   * The suffixes Vulkan defines for a layout: 8-bit layouts have the six
   * integer-like suffixes and SRGB, 16-bit layouts the six and SFLOAT, 32-bit
   * layouts only UINT, SINT and SFLOAT.
   */
  predicate Defined(l: Layout, s: Suffix) {
    match Bits(l)
    case 8 => s != SFLOAT
    case 16 => s != SRGB
    case _ => s in {UINT, SINT, SFLOAT}
  }

  /** The codes of the listed formats in the Vulkan enumeration. */
  predicate IsListedCode(n: nat) {
    (9 <= n <= 29) || (37 <= n <= 43) || (70 <= n <= 109)
  }

  /** A listed format names a defined pair; `Other` stands only for codes no listed format owns. */
  predicate WellFormed(f: Format) {
    match f
    case Vk(l, s) => Defined(l, s)
    case Other(id) => !IsListedCode(id)
  }

  type VkFormat = f: Format | WellFormed(f) witness Other(0)

  predicate Listed(f: VkFormat) {
    f.Vk?
  }

  /**
   * The first code of a layout's run in the enumeration
   * (`VK_FORMAT_R8_UNORM` = 9, `VK_FORMAT_R8G8B8A8_UNORM` = 37,
   * `VK_FORMAT_R16_UNORM` = 70, `VK_FORMAT_R32_UINT` = 98, ...).
   */
  function LayoutBase(l: Layout): nat {
    match l
    case R8 => 9
    case R8G8 => 16
    case R8G8B8 => 23
    case R8G8B8A8 => 37
    case R16 => 70
    case R16G16 => 77
    case R16G16B16 => 84
    case R16G16B16A16 => 91
    case R32 => 98
    case R32G32 => 101
    case R32G32B32 => 104
    case R32G32B32A32 => 107
  }

  /** Position of a suffix inside its layout's run: seven codes for 8 and 16 bits, three for 32 bits. */
  function SuffixOffset(l: Layout, s: Suffix): nat {
    if Bits(l) == 32 then
      (match s case UINT => 0 case SINT => 1 case _ => 2)
    else
      (match s
       case UNORM => 0
       case SNORM => 1
       case USCALED => 2
       case SSCALED => 3
       case UINT => 4
       case SINT => 5
       case _ => 6)
  }

  /** The value of the format in the Vulkan `VkFormat` enumeration. */
  function Code(f: VkFormat): nat {
    match f
    case Vk(l, s) => LayoutBase(l) + SuffixOffset(l, s)
    case Other(id) => id
  }

  /** The layout whose run contains a listed code. */
  function LayoutOfCode(n: nat): Layout
    requires IsListedCode(n)
  {
    if n < 16 then R8
    else if n < 23 then R8G8
    else if n < 30 then R8G8B8
    else if n < 44 then R8G8B8A8
    else if n < 77 then R16
    else if n < 84 then R16G16
    else if n < 91 then R16G16B16
    else if n < 98 then R16G16B16A16
    else if n < 101 then R32
    else if n < 104 then R32G32
    else if n < 107 then R32G32B32
    else R32G32B32A32
  }

  /** The suffix at a position of a layout's run. */
  function SuffixAt(l: Layout, i: nat): Suffix {
    if Bits(l) == 32 then
      (if i == 0 then UINT else if i == 1 then SINT else SFLOAT)
    else
      (match i
       case 0 => UNORM
       case 1 => SNORM
       case 2 => USCALED
       case 3 => SSCALED
       case 4 => UINT
       case 5 => SINT
       case _ => if Bits(l) == 8 then SRGB else SFLOAT)
  }

  /**
   * The format a raw code denotes: a listed format exactly for the codes the
   * plug-in names, `Other` for every other code, and in both cases the code
   * is kept.
   */
  function FromCode(n: nat): (f: VkFormat)
    ensures f.Other? <==> !IsListedCode(n)
    ensures Code(f) == n
  {
    if IsListedCode(n) then
      var l := LayoutOfCode(n);
      Vk(l, SuffixAt(l, n - LayoutBase(l)))
    else
      Other(n)
  }

  /** The codes of a layout form one run, with the defined suffixes in enumeration order. */
  lemma CodeRuns(l: Layout, s: Suffix)
    requires Defined(l, s)
    ensures IsListedCode(Code(Vk(l, s)))
    ensures LayoutOfCode(Code(Vk(l, s))) == l
    ensures SuffixAt(l, SuffixOffset(l, s)) == s
  {
  }

  /** Encoding a format and decoding the code gives the format back. */
  lemma FromCodeOfCode(f: VkFormat)
    ensures FromCode(Code(f)) == f
  {
    if f.Vk? {
      CodeRuns(f.layout, f.suffix);
    }
  }

  /** Distinct formats have distinct codes. */
  lemma CodeInjective(f: VkFormat, g: VkFormat)
    requires Code(f) == Code(g)
    ensures f == g
  {
    FromCodeOfCode(f);
    FromCodeOfCode(g);
  }
}

=== FILE: wrappers.dfy ===
/** Optional values and results shared by the whole model. */
module Wrappers {

  /** An optional value. */
  datatype Option<+T> = None | Some(value: T)

  /** Either a success value or an error value. */
  datatype Result<+T, +E> = Success(value: T) | Failure(error: E)
}
